=== FILE: README.md ===
# Portable mode update, modelled in Dafny

A model of the VS Code extension "Portable mode update" (`src/extension.ts`).
Its one command, `portable-mode-update.checkVersion`, does four things:

- It fetches the latest editor release.
- It compares the release's tag with the running editor's version.
- It picks a Windows `.zip` archive of the release (or a fallback address on Windows).
- If the user answers 'Yes', `updateVSCode` runs:
  - it downloads the archive, following at most five 301/302 redirects;
  - it writes a PowerShell or bash script that unpacks the archive over the
    portable installation and deletes it;
  - outside demo mode, it launches that script and closes the editor window;
    on Windows, unless the window's close confirmation is set to `never`, the
    window closes only if the user picks "Close VS Code Now".

The model has seven modules, one file each:

| file | module | what it holds |
|---|---|---|
| `wrappers.dfy` | `Wrappers` | `Option` and `Result` |
| `strings.dfy` | `Strings` | the JavaScript string operations the handler relies on: `startsWith`, `endsWith`, `includes`, the relational `<` on strings, `trim`, and joining lines; also the decimal rendering of a status code |
| `version.dfy` | `Version` | stripping the `v` from the tag and the string comparison of versions |
| `release.dfy` | `Release` | release metadata and the choice of the download address |
| `download.dfy` | `Download` | `downloadFile` |
| `script.dfy` | `UpdateScript` | the text of both update scripts, and what the PowerShell wait loop does |
| `orchestrator.dfy` | `Orchestrator` | `updateVSCode` and the `checkVersion` command, as traces of effects |

Everything outside the extension's own logic is a parameter:

- The release registry's answer, as `Result<ReleaseInfo, string>`.
- The download server, as a function from address to response.
- The user's choices in the two notifications.
- The settings, the platform and `TEMP`.

What the handler does to the outside world is a sequence of `Effect`s, in order:

- log lines (with the wording as a `Message` datatype);
- notifications;
- the download;
- writing the script and `chmod`;
- `exec` or `spawn`;
- the delayed window close.

Most properties are stated over `Actions(t)`, which is the trace with its log
lines removed.

Versions are compared exactly as the code compares them: as strings. So an
editor at 1.99.3 is not offered release v1.100.0 (`Version.StringOrderIsNotSemver`).

Each call of `downloadFile` opens the file at the download path before it
sends its request. A non-200 response, a redirect without a `Location`, or an
address that `https.get` refuses outright (an `http:` address, a malformed
URL) rejects the call and leaves that file empty in place. A transport error
unlinks it, and so does a followed 301/302 before the next call opens it
again. The archive and the script have fixed names in `TEMP` on every call.

## Model

| member | source | states |
|---|---|---|
| Strings.Less | src/extension.ts:259 | JavaScript's `<` on strings, by recursion on the first characters; `Strings.LessIffBelow` characterises it by the first differing position, and `LessIrreflexive` and `LessTrichotomy` show it is a strict total order |
| Strings.LessIffBelow | src/extension.ts:259 | JavaScript's `a < b` on strings holds exactly when the two agree up to some position, after which `a` ends or has the smaller character |
| Strings.Includes | src/extension.ts:264 | `includes` as a test at each position in turn; `Strings.IncludesIffOccurs` states it holds exactly when the substring occurs somewhere |
| Strings.IncludesIffOccurs | src/extension.ts:264 | `includes` holds exactly when the substring occurs at some position |
| Strings.Trim | src/extension.ts:148 | `trim` gives a text no longer than its input that neither starts nor ends with whitespace, and is empty exactly when the input is all whitespace |
| Strings.TrimPadded | src/extension.ts:148 | `trim` removes whitespace padding on both sides and nothing of a body that starts and ends visibly |
| Strings.DecimalRoundTrip | src/extension.ts:80 | the decimal rendering of a status code reads back as that code |
| Version.StripTag | src/extension.ts:239 | a tag starting with `v` is that one `v` followed by the result; any other tag is returned unchanged |
| Version.StripTagExamples | src/extension.ts:239 | only one `v` is removed (`vv1.0` gives `v1.0`), an upper-case `V` is kept, and the empty tag stays empty |
| Version.IsNewer | src/extension.ts:259 | `latestVersion > currentVersion` holds exactly when the latest version is lexicographically above the current one: the two agree up to a position after which the current version ends or has the smaller character |
| Version.NewerTrichotomy | src/extension.ts:259 | equal versions are never newer, "newer" is asymmetric, and of two different versions one is newer |
| Version.StringOrderIsNotSemver | src/extension.ts:239-259 | 1.10.0 is not newer than 1.9.0, 1.9.0 is newer than 1.10.0, and v1.100.0 is not newer than 1.99.3 |
| Release.FindWindowsZip | src/extension.ts:262-265 | the result is the position of the first asset whose name ends in `.zip` and contains `win32-x64`; there is none exactly when no asset passes the test |
| Release.SelectDownloadUrl | src/extension.ts:261-276 | the first matching asset's address is chosen on every platform; with no match, Windows gets the configured or default address and other platforms get none |
| Release.AssetBeatsFallback | src/extension.ts:262-268 | a matching archive after only non-matching assets is chosen, whatever the platform and the setting |
| Release.SelectExample | src/extension.ts:261-276 | on Linux, with a tarball first and two Windows archives after it, the first Windows archive is chosen |
| Download.Fetch | src/extension.ts:57-94 | a call past five redirects fails at once and touches nothing; otherwise the requests form a redirect chain from the address; the call resolves only on a 200, and the file then holds that body; a redirect without a location, any other status, or an address `https.get` refuses, fails and leaves the empty file; a transport error removes the file |
| Download.DownloadFile | src/extension.ts:57-101 | `downloadFile(url, downloadPath)` requests the address first and makes at most six requests; a failure leaves no file after too many redirects or a transport error, and the empty file otherwise |
| Download.ErrorMessage | src/extension.ts:59-91 | the message each failure rejects with; `Download.BadStatusMessageInjective` shows the status error's message determines the status, and `Download.NotFound` gives the 404 wording |
| Download.RefusedRedirect | src/extension.ts:63-71 | a redirect to an address `https.get` refuses ends after two requests with that refusal's message, leaving the empty file the second call opened |
| Download.FetchGivesUpIff | src/extension.ts:59-73 | a call with counter `c` fails with too many redirects exactly when the redirect chain from its address is `6 - c` hops long |
| Download.FetchResolvesStep | src/extension.ts:65-87 | a call resolves exactly on a 200 here or through the call that follows the redirect |
| Download.SucceedsWithinStep | src/extension.ts:65-87 | an address succeeds within `n` hops exactly when it answers 200 or redirects to one that succeeds within `n - 1` |
| Download.FetchResolvesIff | src/extension.ts:57-94 | a call with counter `c` resolves exactly when a 200 is reached within `5 - c` redirects |
| Download.TooManyRedirectsIff | src/extension.ts:57-73 | `downloadFile` fails with "Too many redirects" exactly when six redirects follow in a row, and then leaves no file |
| Download.SucceedsIff | src/extension.ts:57-94 | `downloadFile` resolves exactly when a 200 is reached after at most five redirects, and the file holds that response's body |
| Download.RedirectLoop | src/extension.ts:59-73 | a server that always redirects to the same address gets six requests and then "Too many redirects", with no file left |
| Download.NotFound | src/extension.ts:79-82 | a 404 is not retried: one request, the message "Failed to download: 404 Not Found", and the empty file is left in place |
| Download.BadStatusMessageInjective | src/extension.ts:80 | the status error's message determines the status code and the status message |
| UpdateScript.ScriptContent | src/extension.ts:108-169 | the chosen template, trimmed; `UpdateScript.ContentIsJoinedLines` gives its text, and the `PowerShell…` and `Bash…` lemmas after it state what each script does |
| UpdateScript.ContentIsJoinedLines | src/extension.ts:110-169 | the trimmed script is exactly the template's lines joined by line breaks, whatever values are interpolated |
| UpdateScript.PowerShellLineFacts | src/extension.ts:112-148 | the PowerShell script has 35 lines, with the wait loop at line 8, `Expand-Archive` at line 26 and `Remove-Item` at line 30 |
| UpdateScript.PowerShellScriptStart | src/extension.ts:108-114 | on Windows the script is a `.ps1` and starts by assigning the quoted download path and installation directory |
| UpdateScript.PowerShellScriptOrder | src/extension.ts:116-142 | the wait loop capped at 30 comes before `Expand-Archive`, which comes before `Remove-Item` |
| UpdateScript.PowerShellScriptEnd | src/extension.ts:143-148 | the script ends with the completion notice naming the product, a blank line, and the prompt for Enter |
| UpdateScript.BashLineFacts | src/extension.ts:150-168 | the bash script has 17 lines, with `unzip -o` at line 8 and `rm` at line 12 |
| UpdateScript.BashScriptStart | src/extension.ts:108-154 | elsewhere the script is a `.sh` that starts with `#!/bin/bash` and `sleep 2`, then assigns the quoted values |
| UpdateScript.BashScriptOrder | src/extension.ts:155-162 | `unzip -o` comes before `rm` of the archive |
| UpdateScript.BashScriptEnd | src/extension.ts:163-168 | the script ends with the completion notice naming the product, a blank line, and the prompt for Enter |
| UpdateScript.WaitForEditorExit | src/extension.ts:117-130 | the script waits at most 30 rounds, keeps waiting only while the editor is found, and stops at the first probe that misses it; it asks for a manual close exactly when the editor outlived the cap |
| Orchestrator.PathJoin | src/extension.ts:97-109 | the file name ends the path; with `TEMP` unset or empty the path is the bare name; otherwise it starts with `TEMP`, and exactly the platform's separator (`\` on Windows, `/` elsewhere) stands before the name |
| Orchestrator.ErrorText | src/extension.ts:295 | `${error}` of an `Error` starts with `Error`, is exactly `Error` for an empty message, and is `Error: ` followed by the message otherwise |
| Orchestrator.ErrorTextInjective | src/extension.ts:295 | distinct error messages are shown as distinct texts |
| Orchestrator.Launch | src/extension.ts:186-224 | the note about the close confirmation unless the setting is `never`, then the platform's launch; `Orchestrator.LaunchPosix` and `Orchestrator.LaunchWin32` state its actions |
| Orchestrator.LaunchPosix | src/extension.ts:217-224 | outside Windows the launch is a detached `bash` on the script, then a close after 1000 ms |
| Orchestrator.LaunchWin32 | src/extension.ts:195-216 | on Windows the launch is `start powershell.exe ... -File "<script>"`; the close is delayed 1000 ms when the setting is `never`, and otherwise comes only after the user's "Close VS Code Now" |
| Orchestrator.WriteScriptActions | src/extension.ts:171-178 | the script is written, then made executable (755) outside Windows only |
| Orchestrator.HandoverActions | src/extension.ts:180-225 | demo mode launches nothing; otherwise the launch is the only action |
| Orchestrator.AfterDownloadActions | src/extension.ts:171-225 | after the download: write, `chmod` outside Windows, and launch unless in demo mode |
| Orchestrator.UpdateVSCode | src/extension.ts:96-229 | `updateVSCode`, given how the download settled; `Orchestrator.UpdateSettlesAsDownload`, `Orchestrator.PosixUpdateActions`, `Orchestrator.Win32UpdateActions` and `Orchestrator.DemoUpdateActions` state its actions and its failure |
| Orchestrator.UpdateActions | src/extension.ts:96-101 | `updateVSCode` starts the download, and takes further actions only if the download resolves |
| Orchestrator.PosixUpdateActions | src/extension.ts:96-224 | outside Windows and outside demo mode, after a successful download, the actions are exactly: download, write, `chmod 755`, detached bash, close after 1000 ms |
| Orchestrator.Win32UpdateActions | src/extension.ts:96-216 | on Windows outside demo mode, after a successful download, the actions are: download, write (no `chmod`), one PowerShell `exec`, then a close only as the setting and the answer allow |
| Orchestrator.DemoUpdateActions | src/extension.ts:176-181 | in demo mode, after a successful download, the script is written (and made executable outside Windows) and nothing else happens |
| Orchestrator.UpdateSettlesAsDownload | src/extension.ts:96-228 | `updateVSCode` fails exactly when the download fails; then nothing follows the download, and the error is rethrown as "Failed to update Visual Studio Code: " followed by the download's message; what is left at the download path is the download's |
| Orchestrator.Win32ClosesIff | src/extension.ts:186-216 | on Windows outside demo mode, after a successful download, the window is closed exactly when the setting is `never` or the user picks "Close VS Code Now" |
| Orchestrator.ChmodIff | src/extension.ts:176-178 | after a successful download, `chmod` happens exactly outside Windows |
| Orchestrator.UpdateNeverAsks | src/extension.ts:96-229 | `updateVSCode` never shows the update question or an error itself; the only notification it shows is the "Close VS Code Now" one on Windows |
| Orchestrator.FailedUpdateActions | src/extension.ts:99-228 | after a failed download no script is written and nothing is launched or closed |
| Orchestrator.DemoLaunchesNothing | src/extension.ts:180-181 | in demo mode `updateVSCode` neither execs nor spawns nor closes |
| Orchestrator.CheckVersion | src/extension.ts:235-297 | the command as a trace; `Orchestrator.AsksIff`, `Orchestrator.DownloadsIff`, `Orchestrator.NotOfferedActions`, `Orchestrator.FetchFailureShown` and the lemmas after them state what it does |
| Orchestrator.Offer | src/extension.ts:278-287 | the question, then the update on 'Yes' and a cancellation notice otherwise; `Orchestrator.OfferAcceptedActions` and `Orchestrator.DeclinedActions` state its actions |
| Orchestrator.HeaderQuiet | src/extension.ts:241-257 | the header the command writes after a successful fetch is log lines only |
| Orchestrator.FetchFailureShown | src/extension.ts:236-296 | a failed release fetch only shows the error message, with the error rendered as `${error}` renders it |
| Orchestrator.NotOfferedActions | src/extension.ts:259-293 | after a successful fetch, when no update is offered the command takes no action, and its last log line says the version is current or the platform is unsupported |
| Orchestrator.DeclinedActions | src/extension.ts:278-287 | any answer other than 'Yes' leaves the question as the only action, and the last log line says the update was cancelled |
| Orchestrator.OfferAcceptedActions | src/extension.ts:278-284 | after 'Yes' the question is followed by the update's actions and, if it failed, its error |
| Orchestrator.AcceptedActions | src/extension.ts:278-296 | an accepted offer's actions are the question, the update's actions, and the error shown last if the update failed |
| Orchestrator.AsksIff | src/extension.ts:236-282 | the user is asked exactly when the fetch succeeded, the tag is newer by string order, and a truthy download address exists |
| Orchestrator.DownloadsIff | src/extension.ts:259-287 | a download happens exactly when an update was offered and the answer is exactly 'Yes' |
| Orchestrator.DemoLeavesEditorRunning | src/extension.ts:250-254 | with the demo-mode setting on, the command never execs, spawns or closes the window, whatever the release and the answers |
| Orchestrator.FailedDownloadActions | src/extension.ts:278-296 | an accepted update whose download fails: question, download, then the error, last |
| Orchestrator.DownloadFailureReported | src/extension.ts:284-296 | a failed download writes no script, launches nothing, and ends by showing the download's message behind the prefix "Failed to update Visual Studio Code: " that `updateVSCode`'s catch adds |
| Orchestrator.UnsupportedPlatform | src/extension.ts:267-290 | outside Windows a newer release without a matching archive asks nothing and logs that the platform is unsupported |
| Orchestrator.Win32Fallback | src/extension.ts:267-278 | on Windows without a matching archive, the configured address (or the default when unset) is offered; an empty setting is falsy and nothing is offered |
| Orchestrator.ExampleIsOffered | src/extension.ts:239-268 | release v1.2.3 with a `VSCode-win32-x64-1.2.3.zip` asset is offered to a Linux editor at 1.1.0, from that asset's address |
| Orchestrator.ExamplePaths | src/extension.ts:97-109 | with `TEMP` unset, the archive and the script are the bare names `vscode-portable-mode-update.zip` and `.sh` |
| Orchestrator.ExampleUpdate | src/extension.ts:96-224 | on that Linux example, with a server answering 200, the update's actions are exactly: download, write, `chmod 755`, detached bash, close after 1000 ms |
| Orchestrator.PosixEndToEnd | src/extension.ts:235-285 | the whole example command is the question about 1.2.3 followed by those update actions |

## Left out

- The request for the latest release (`getLatestVSCodeRelease`): the HTTPS call and the JSON parsing are not modelled. The command receives their result as `Result<ReleaseInfo, string>`. A body without `tag_name` or `assets`, which throws a `TypeError` in the handler, is not modelled.
- `activate` and `deactivate`, the command registration, and the startup check: these only wire the command into the editor.
- File system, processes, timers and editor APIs are effects in the trace, and they never fail. Failures of `writeFileSync`, `chmodSync`, `exec` or `spawn` are not modelled.
- Download.Fetch: an error of the response stream mid-transfer is not modelled, and neither is the order of the asynchronous unlink and the retry. A 200 writes the whole body.
- Download.Fetch: the server is a fixed function of the address, so two requests to one address get the same answer.
- UpdateScript.WaitForEditorExit: the one-second sleeps are not modelled. Only the sequence of probes is modelled.
- Orchestrator.WriteScriptSteps: the `WriteScript` effect records the values the script is rendered from. The text itself is `ScriptParams.Text()`, and the `UpdateScript` lemmas state what it is.
- Orchestrator.PathJoin: `path.join` is reduced to joining a directory and a plain name with the platform's separator. Its normalisation is not modelled: `.` and `..` segments are kept, repeated separators are not collapsed, and on Windows a `/` in `TEMP` is not turned into `\` (a `TEMP` of `C:/Temp` gives `C:/Temp\vscode-portable-mode-update.zip`, where Node gives `C:\Temp\vscode-portable-mode-update.zip`).
- Strings.Less: JavaScript compares strings by UTF-16 code units, while Dafny's `char` is a Unicode scalar value. The two orders agree on characters below the surrogate range, which covers version strings.
- No value interpolated into the scripts or the PowerShell command is quoted or escaped. A quote in a path breaks the script; this is modelled only as text.
- The global `demoMode` variable, and concurrent runs of the command, are not modelled. Each run reads the setting once.
- Log wording is modelled as a `Message` datatype with its text in `Orchestrator.Text`. The properties are stated over the messages, not their characters.
- `outputChannel.clear()` and `show()` are not modelled. They only affect the display.

=== FILE: download.dfy ===
/** `downloadFile`: a GET of the archive to a local file that follows
    301/302 redirects, with a redirect counter that stops the chain.

    The network is a parameter: a `Server` gives the outcome of a GET to
    each address. The local file is tracked as absent or present with some
    content, which is all the callers can observe of it. */
module Download {
  import opened Wrappers
  import opened Strings

  /** What a GET produces: a response (status line, optional `Location`
      header, body bytes), a request-level error reported asynchronously, or
      an address the client refuses synchronously (an `http:` or relative
      address, a malformed URL), which throws before any request is sent. */
  datatype HttpOutcome =
    | Response(statusCode: nat, statusMessage: string, location: Option<string>, body: seq<bv8>)
    | TransportError(message: string)
    | Refused(message: string)

  /** The outcome of a GET to each address. */
  type Server = string -> HttpOutcome

  /** The destination file. */
  datatype FileState = Absent | Present(content: seq<bv8>)

  /** The errors `downloadFile` rejects with. */
  datatype DownloadError =
    | TooManyRedirects
    | RedirectWithoutLocation
    | BadStatus(statusCode: nat, statusMessage: string)
    | Transport(message: string)
    | Thrown(message: string)

  /** How the returned promise settles. */
  datatype Outcome = Resolved | Rejected(error: DownloadError)

  /** The settled promise, the addresses requested (or refused) in order,
      and the destination file afterwards. */
  datatype DownloadResult = DownloadResult(outcome: Outcome, requests: seq<string>, file: FileState)

  /** A call whose counter exceeds this fails before any request. */
  const MaxRedirects: nat := 5

  /** Only these two statuses are followed; 303, 307 and 308 are not. */
  predicate IsRedirectStatus(code: int) {
    code == 301 || code == 302
  }

  /** The address a redirect sends the client on to. A missing or empty
      `Location` header is falsy in the source and is not followed. */
  function RedirectTarget(o: HttpOutcome): Option<string> {
    if o.Response? && IsRedirectStatus(o.statusCode) && o.location.Some? && o.location.value != ""
    then Some(o.location.value)
    else None
  }

  predicate IsOk(o: HttpOutcome) {
    o.Response? && o.statusCode == 200
  }

  function Last(s: seq<string>): string
    requires |s| > 0
  {
    s[|s| - 1]
  }

  /** One call of `downloadFile(url, destinationPath, redirectCount)`.
      `file` is the destination file when the call starts; it only matters
      when the call fails before opening the file. */
  function Fetch(server: Server, url: string, redirectCount: nat, file: FileState): (d: DownloadResult)
    // a call past the bound touches neither the network nor the file
    ensures redirectCount > MaxRedirects ==> d == DownloadResult(Rejected(TooManyRedirects), [], file)
    // otherwise the requests form a redirect chain starting at url ...
    ensures redirectCount <= MaxRedirects ==>
              && 1 <= |d.requests| <= MaxRedirects + 1 - redirectCount
              && d.requests[0] == url
    ensures forall i :: 0 <= i < |d.requests| - 1 ==> RedirectTarget(server(d.requests[i])) == Some(d.requests[i + 1])
    // ... that stops early only at a response that is not followed
    ensures redirectCount <= MaxRedirects && |d.requests| < MaxRedirects + 1 - redirectCount ==>
              RedirectTarget(server(Last(d.requests))).None?
    // and the response to the last request decides the result
    ensures d.outcome.Resolved? ==>
              && redirectCount <= MaxRedirects
              && IsOk(server(Last(d.requests)))
              && d.file == Present(server(Last(d.requests)).body)
    ensures d.outcome == Rejected(TooManyRedirects) && redirectCount <= MaxRedirects ==>
              && |d.requests| == MaxRedirects + 1 - redirectCount
              && RedirectTarget(server(Last(d.requests))).Some?
              && d.file == Absent
    ensures d.outcome == Rejected(RedirectWithoutLocation) ==>
              && server(Last(d.requests)).Response?
              && IsRedirectStatus(server(Last(d.requests)).statusCode)
              && RedirectTarget(server(Last(d.requests))).None?
              && d.file == Present([])
    ensures d.outcome.Rejected? && d.outcome.error.BadStatus? ==>
              && server(Last(d.requests)).Response?
              && d.outcome.error == BadStatus(server(Last(d.requests)).statusCode, server(Last(d.requests)).statusMessage)
              && d.outcome.error.statusCode != 200
              && !IsRedirectStatus(d.outcome.error.statusCode)
              && d.file == Present([])
    ensures d.outcome.Rejected? && d.outcome.error.Transport? ==>
              && server(Last(d.requests)) == TransportError(d.outcome.error.message)
              && d.file == Absent
    // a refused address rejects the promise and leaves the file just opened
    ensures d.outcome.Rejected? && d.outcome.error.Thrown? ==>
              && server(Last(d.requests)) == Refused(d.outcome.error.message)
              && d.file == Present([])
    decreases MaxRedirects + 1 - redirectCount
  {
    if redirectCount > MaxRedirects then
      DownloadResult(Rejected(TooManyRedirects), [], file)
    else
      match server(url)
      case TransportError(m) =>
        // the file was opened; the error handler unlinks it
        DownloadResult(Rejected(Transport(m)), [url], Absent)
      case Refused(m) =>
        // the throw rejects this call's promise; the opened file stays
        DownloadResult(Rejected(Thrown(m)), [url], Present([]))
      case Response(code, message, location, body) =>
        if IsRedirectStatus(code) then
          if location.Some? && location.value != "" then
            // close and unlink the file, then retry with the counter raised
            var next := Fetch(server, location.value, redirectCount + 1, Absent);
            DownloadResult(next.outcome, [url] + next.requests, next.file)
          else
            // the opened (empty) file is left behind
            DownloadResult(Rejected(RedirectWithoutLocation), [url], Present([]))
        else if code != 200 then
          DownloadResult(Rejected(BadStatus(code, message)), [url], Present([]))
        else
          DownloadResult(Resolved, [url], Present(body))
  }

  /** `downloadFile(url, destinationPath)` with the default counter 0: at
      most six addresses, starting with `url`; giving up on redirects or a
      transport error leaves no file, any other failure the empty one. */
  function DownloadFile(server: Server, url: string): (d: DownloadResult)
    ensures 1 <= |d.requests| <= MaxRedirects + 1 && d.requests[0] == url
    ensures d.outcome.Rejected? ==>
              d.file == if d.outcome.error.TooManyRedirects? || d.outcome.error.Transport? then Absent else Present([])
  {
    Fetch(server, url, 0, Absent)
  }

  /** The text of the error's message. */
  function ErrorMessage(e: DownloadError): string {
    match e
    case TooManyRedirects => "Too many redirects"
    case RedirectWithoutLocation => "Redirect with no location header"
    case BadStatus(code, message) => "Failed to download: " + DecimalString(code) + " " + message
    case Transport(message) => message
    case Thrown(message) => message
  }

  // ---------------------------------------------------------------------
  // Reference definition: following redirects hop by hop
  // ---------------------------------------------------------------------

  /** The address reached after following exactly `k` redirects from `url`,
      if the chain is that long. */
  function Hop(server: Server, url: string, k: nat): Option<string>
    decreases k
  {
    if k == 0 then Some(url)
    else match RedirectTarget(server(url))
      case None => None
      case Some(next) => Hop(server, next, k - 1)
  }

  /** Some address reachable within `n` redirects answers 200. */
  predicate SucceedsWithin(server: Server, url: string, n: nat) {
    exists k :: 0 <= k <= n && Hop(server, url, k).Some? && IsOk(server(Hop(server, url, k).value))
  }

  /** A call with counter `c` gives up on redirects exactly when the chain
      from `url` goes on for `6 - c` hops. */
  lemma {:induction false} FetchGivesUpIff(server: Server, url: string, c: nat, file: FileState)
    requires c <= MaxRedirects
    ensures Fetch(server, url, c, file).outcome == Rejected(TooManyRedirects)
            <==> Hop(server, url, MaxRedirects + 1 - c).Some?
    decreases MaxRedirects - c
  {
    match RedirectTarget(server(url))
    case None =>
    case Some(next) =>
      if c < MaxRedirects {
        FetchGivesUpIff(server, next, c + 1, Absent);
      }
  }

  /** Success within `n` hops: a 200 right here, or a redirect whose target
      succeeds within `n - 1`. */
  lemma SucceedsWithinStep(server: Server, url: string, n: nat)
    ensures SucceedsWithin(server, url, n) <==>
              || IsOk(server(url))
              || (n >= 1 && RedirectTarget(server(url)).Some? &&
                  SucceedsWithin(server, RedirectTarget(server(url)).value, n - 1))
  {
    assert Hop(server, url, 0) == Some(url);
    match RedirectTarget(server(url))
    case None =>
      assert forall k :: 1 <= k <= n ==> Hop(server, url, k).None?;
    case Some(next) =>
      if n >= 1 {
        if SucceedsWithin(server, next, n - 1) {
          var k :| 0 <= k <= n - 1 && Hop(server, next, k).Some? && IsOk(server(Hop(server, next, k).value));
          assert Hop(server, url, k + 1) == Hop(server, next, k);
        }
        if SucceedsWithin(server, url, n) && !IsOk(server(url)) {
          var k :| 0 <= k <= n && Hop(server, url, k).Some? && IsOk(server(Hop(server, url, k).value));
          assert k >= 1;
          assert Hop(server, next, k - 1) == Hop(server, url, k);
        }
      }
  }

  /** One step of a call: it resolves at a 200 here, or through the call
      that follows the redirect. */
  lemma FetchResolvesStep(server: Server, url: string, c: nat, file: FileState)
    requires c <= MaxRedirects
    ensures Fetch(server, url, c, file).outcome.Resolved? <==>
              || IsOk(server(url))
              || (RedirectTarget(server(url)).Some? &&
                  Fetch(server, RedirectTarget(server(url)).value, c + 1, Absent).outcome.Resolved?)
  {
  }

  /** A call with counter `c` resolves exactly when a 200 is reached within
      `5 - c` hops. */
  lemma {:induction false} FetchResolvesIff(server: Server, url: string, c: nat, file: FileState)
    requires c <= MaxRedirects
    ensures Fetch(server, url, c, file).outcome.Resolved?
            <==> SucceedsWithin(server, url, MaxRedirects - c)
    decreases MaxRedirects - c
  {
    var n := MaxRedirects - c;
    SucceedsWithinStep(server, url, n);
    FetchResolvesStep(server, url, c, file);
    match RedirectTarget(server(url))
    case None =>
    case Some(next) =>
      if c < MaxRedirects {
        FetchResolvesIff(server, next, c + 1, Absent);
      } else {
        assert Fetch(server, next, c + 1, Absent).outcome == Rejected(TooManyRedirects);
      }
  }

  /** `downloadFile` fails with "Too many redirects" exactly when the
      response chain has six redirects in a row; then no file is left. */
  lemma TooManyRedirectsIff(server: Server, url: string)
    ensures DownloadFile(server, url).outcome == Rejected(TooManyRedirects)
            <==> Hop(server, url, MaxRedirects + 1).Some?
    ensures DownloadFile(server, url).outcome == Rejected(TooManyRedirects)
            ==> DownloadFile(server, url).file == Absent
  {
    FetchGivesUpIff(server, url, 0, Absent);
  }

  /** `downloadFile` resolves exactly when a 200 is reached after at most
      five redirects, and the file then holds that response's body. */
  lemma SucceedsIff(server: Server, url: string)
    ensures DownloadFile(server, url).outcome.Resolved? <==> SucceedsWithin(server, url, MaxRedirects)
    ensures DownloadFile(server, url).outcome.Resolved? ==>
              DownloadFile(server, url).file == Present(server(Last(DownloadFile(server, url).requests)).body)
  {
    FetchResolvesIff(server, url, 0, Absent);
  }

  /** A server that always redirects to the same address: six requests,
      then "Too many redirects", and no file. */
  lemma RedirectLoop(url: string)
    requires url != ""
    ensures var d := DownloadFile(u => Response(302, "Found", Some(url), []), url);
            && d.outcome == Rejected(TooManyRedirects)
            && d.requests == [url, url, url, url, url, url]
            && d.file == Absent
            && ErrorMessage(d.outcome.error) == "Too many redirects"
  {
  }

  /** A 404 is not retried: one request, an error carrying the status, and
      the empty file the call opened is left in place. */
  lemma NotFound(url: string)
    ensures var d := DownloadFile(u => Response(404, "Not Found", None, []), url);
            && d.outcome == Rejected(BadStatus(404, "Not Found"))
            && d.requests == [url]
            && d.file == Present([])
            && ErrorMessage(d.outcome.error) == "Failed to download: 404 Not Found"
  {
  }

  /** A redirect to an address the client refuses (here a plain `http:`
      one): the second call throws, the promise chain rejects with its
      message, and the empty file that call opened stays. */
  lemma RefusedRedirect(url: string, target: string, message: string)
    requires url != target && target != ""
    ensures var d := DownloadFile(u => if u == url then Response(302, "Found", Some(target), []) else Refused(message), url);
            && d.outcome == Rejected(Thrown(message))
            && d.requests == [url, target]
            && d.file == Present([])
            && ErrorMessage(d.outcome.error) == message
  {
  }

  /** A status error's message identifies the status code and message it
      was built from. */
  lemma BadStatusMessageInjective(c1: nat, m1: string, c2: nat, m2: string)
    requires ErrorMessage(BadStatus(c1, m1)) == ErrorMessage(BadStatus(c2, m2))
    ensures c1 == c2 && m1 == m2
  {
    var p := "Failed to download: ";
    var d1, d2 := DecimalString(c1), DecimalString(c2);
    var t1, t2 := d1 + " " + m1, d2 + " " + m2;
    assert p + t1 == ErrorMessage(BadStatus(c1, m1));
    assert p + t2 == ErrorMessage(BadStatus(c2, m2));
    assert t1 == (p + t1)[|p|..];
    assert t2 == (p + t2)[|p|..];
    // the first space ends the digits
    assert t1[|d1|] == ' ' && t2[|d2|] == ' ';
    assert forall i :: 0 <= i < |d1| ==> t1[i] == d1[i];
    assert forall i :: 0 <= i < |d2| ==> t2[i] == d2[i];
    assert |d1| == |d2|;
    assert d1 == t1[..|d1|] && d2 == t2[..|d2|];
    DecimalInjective(c1, c2);
    assert m1 == t1[|d1| + 1..] && m2 == t2[|d2| + 1..];
  }
}

=== FILE: orchestrator.dfy ===
/** The `checkVersion` command and `updateVSCode`, as the sequence of
    observable effects they produce.

    Everything the handlers touch outside their own logic is an input or
    an effect: the release registry's answer, the download server, the
    user's answers to the two notifications, the settings and the platform
    come in; log lines, notifications, file writes, process launches and the
    window close go out, in order. */
module Orchestrator {
  import opened Wrappers
  import opened Strings
  import opened Version
  import opened Release
  import opened Download
  import opened UpdateScript

  /** What the handlers write to the output channel or show in a
      notification; `Text` gives the wording. */
  datatype Message =
    | Blank
    | PortableDirectory(vscodeDir: string)
    | DemoBanner
    | CurrentVersion(version: string)
    | LatestVersion(version: string)
    | AlreadyLatest
    | NotSupported(platform: string)
    | UpdateCancelled
    | UpdateQuestion(latest: string, vscodeDir: string)
    | Downloading(url: string)
    | DownloadCompleted(path: string)
    | ScriptFile(path: string)
    | UpdateStarting
    | ConfirmBeforeCloseNote(setting: string)
    | CloseManually
    | CheckFailed(error: string)

  /** One observable step of the command. `WriteScript` writes
      `script.Text()`. */
  datatype Effect =
    | Log(line: Message)
    | AskUpdate(question: Message, choices: seq<string>)
    | DownloadArchive(url: string, path: string)
    | WriteScript(path: string, script: ScriptParams)
    | Chmod(path: string, mode: string)
    | Exec(command: string)
    | Spawn(program: string, args: seq<string>, detached: bool)
    | ShowInfo(notice: Message, choice: string)
    | CloseWindow(delayMs: nat)
    | ShowError(error: Message)

  /** The settings and process facts the handlers read. An absent setting
      is `None`; `temp` is the `TEMP` variable, "" when unset. */
  datatype Environment = Environment(
    platform: string,
    temp: string,
    vscodeDir: string,
    currentVersion: string,
    demoMode: Option<bool>,
    win32DownloadUrl: Option<string>,
    confirmBeforeClose: Option<string>)

  /** The choices the user makes in the two notifications; `None` when the
      notification is dismissed. */
  datatype Answers = Answers(update: Option<string>, close: Option<string>)

  /** What `updateVSCode` did, how its promise settled (the message of the
      error it throws, if any), and what is left at the download path. */
  datatype UpdateRun = UpdateRun(effects: seq<Effect>, failure: Option<string>, archive: FileState)

  const Product := "Visual Studio Code"
  const ArchiveName := "vscode-portable-mode-update.zip"
  const CloseNow := "Close VS Code Now"
  const CloseDelayMs: nat := 1000
  const UpdateFailurePrefix := "Failed to update " + Product + ": "

  /** The wording of each message. */
  function Text(m: Message): string {
    match m
    case Blank => ""
    case PortableDirectory(dir) => "Portable mode directory: " + dir
    case DemoBanner =>
      "**************************************************************************\n" +
      "* Demo mode is enabled, update script will not be executed automatically *\n" +
      "**************************************************************************\n"
    case CurrentVersion(v) => "Current " + Product + " version: " + v
    case LatestVersion(v) => "Latest available version: " + v
    case AlreadyLatest => "You are already using the latest version."
    case NotSupported(platform) =>
      "Unable to define a download URL, the platform (" + platform +
      ") is not supported for automatic updates. Please download the latest version of " + Product +
      " manually from the official website."
    case UpdateCancelled => "Update cancelled."
    case UpdateQuestion(latest, dir) =>
      "A new version of " + Product + " (" + latest + ") is available. Would you like to update your portable mode installation, available at folder " +
      dir + "? Clicking 'Yes' will download the update, close " + Product + " and run the update script."
    case Downloading(url) => "Downloading update from: " + url
    case DownloadCompleted(path) => "Download completed: " + path
    case ScriptFile(path) => "Update script file: " + path
    case UpdateStarting => "Process update is starting."
    case ConfirmBeforeCloseNote(setting) =>
      "Note: 'Window: Confirm Before Close' is enabled (" + setting +
      "). Please close VS Code manually after the PowerShell window opens."
    case CloseManually =>
      "Update script has started in PowerShell. Please close VS Code manually to complete the update."
    case CheckFailed(error) => "Failed to check " + Product + " versions: " + error
  }

  function DemoMode(env: Environment): bool {
    env.demoMode.GetOr(false)
  }

  function ConfirmBeforeClose(env: Environment): string {
    env.confirmBeforeClose.GetOr("keyboardOnly")
  }

  /** `path.join(dir, name)` for a plain file name, without the
      normalisation of `.` and `..` segments: the name ends the path, a
      non-empty directory starts it, and exactly the platform's separator
      stands between the two. */
  function PathJoin(platform: string, dir: string, name: string): (p: string)
    ensures EndsWith(p, name)
    ensures dir == "" ==> p == name
    ensures dir != "" ==>
              && StartsWith(p, dir)
              && |dir| + |name| <= |p| <= |dir| + 1 + |name|
              && p[|p| - |name| - 1] == (if IsWin32(platform) then '\\' else '/')
  {
    var sep := if IsWin32(platform) then "\\" else "/";
    if dir == "" then name
    else if EndsWith(dir, sep) then dir + name
    else dir + sep + name
  }

  function DownloadPath(env: Environment): string {
    PathJoin(env.platform, env.temp, ArchiveName)
  }

  function ScriptPath(env: Environment): string {
    PathJoin(env.platform, env.temp, "vscode-portable-mode-update." + ScriptExtension(env.platform))
  }

  /** `${error}` for an `Error`: its name, then the message after a colon
      when there is one. */
  function ErrorText(message: string): (r: string)
    ensures StartsWith(r, "Error")
    ensures message == "" <==> |r| == 5
    ensures message != "" ==> StartsWith(r, "Error: ") && EndsWith(r, message) && |r| == |message| + 7
  {
    if message == "" then "Error" else "Error: " + message
  }

  /** Distinct messages are reported as distinct texts. */
  lemma ErrorTextInjective(a: string, b: string)
    ensures ErrorText(a) == ErrorText(b) ==> a == b
  {
  }

  function PowerShellCommand(scriptPath: string): string {
    "start powershell.exe -ExecutionPolicy Bypass -File \"" + scriptPath + "\""
  }

  /** A log line followed by an empty one, as the handlers write most of
      their messages. */
  function Paragraph(m: Message): seq<Effect> {
    [Log(m), Log(Blank)]
  }

  // ---------------------------------------------------------------------
  // updateVSCode
  // ---------------------------------------------------------------------

  /** Handing the script over: a PowerShell window on Windows, closed by
      the extension only when the close confirmation is off or the user
      asks for it; a detached bash elsewhere, with the window closed a
      second later. */
  function Launch(env: Environment, scriptPath: string, closeAnswer: Option<string>): seq<Effect> {
    var confirm := ConfirmBeforeClose(env);
    (if confirm != "never" then Paragraph(ConfirmBeforeCloseNote(confirm)) else []) +
    if IsWin32(env.platform) then
      [Exec(PowerShellCommand(scriptPath))] +
      (if confirm == "never" then [CloseWindow(CloseDelayMs)]
       else [ShowInfo(CloseManually, CloseNow)] + (if closeAnswer == Some(CloseNow) then [CloseWindow(0)] else []))
    else
      [Spawn("bash", [scriptPath], true)] + [CloseWindow(CloseDelayMs)]
  }

  /** Everything after the archive is in place: write the script and hand
      it over. */
  function AfterDownload(env: Environment, closeAnswer: Option<string>): seq<Effect> {
    WriteScriptSteps(env) + Handover(env, closeAnswer)
  }

  /** Write the script, then make it executable outside Windows. */
  function WriteScriptSteps(env: Environment): seq<Effect> {
    var downloadPath, scriptPath := DownloadPath(env), ScriptPath(env);
    Paragraph(DownloadCompleted(downloadPath)) +
    [WriteScript(scriptPath, ScriptParams(env.platform, downloadPath, env.vscodeDir, Product))] +
    Paragraph(ScriptFile(scriptPath)) +
    (if !IsWin32(env.platform) then [Chmod(scriptPath, "755")] else [])
  }

  /** Stop with the banner in demo mode; launch otherwise. */
  function Handover(env: Environment, closeAnswer: Option<string>): seq<Effect> {
    if DemoMode(env) then [Log(DemoBanner)]
    else Paragraph(UpdateStarting) + Launch(env, ScriptPath(env), closeAnswer)
  }

  /** `updateVSCode(downloadUrl)`, given how `downloadFile(url, ...)`
      settled. */
  function UpdateVSCode(env: Environment, d: DownloadResult, closeAnswer: Option<string>, url: string): UpdateRun {
    var start := [Log(Downloading(url))] + [DownloadArchive(url, DownloadPath(env))];
    if d.outcome.Rejected? then UpdateRun(start, Some(UpdateFailurePrefix + ErrorMessage(d.outcome.error)), d.file)
    else UpdateRun(start + AfterDownload(env, closeAnswer), None, d.file)
  }

  // ---------------------------------------------------------------------
  // The checkVersion command
  // ---------------------------------------------------------------------

  /** The address `checkVersion` would download from, if it is truthy. */
  function OfferedUrl(env: Environment, release: ReleaseInfo): Option<string> {
    var url := SelectDownloadUrl(release.assets, env.platform, env.win32DownloadUrl);
    if url.Some? && url.value != "" then url else None
  }

  /** The output channel's header after a successful release fetch. */
  function Header(env: Environment, latest: string): seq<Effect> {
    Paragraph(PortableDirectory(env.vscodeDir)) +
    (if DemoMode(env) then [Log(DemoBanner)] else []) +
    [Log(CurrentVersion(env.currentVersion))] +
    Paragraph(LatestVersion(latest))
  }

  /** Once an update is offered: the question, then the update on 'Yes'. */
  function Offer(env: Environment, server: Server, answers: Answers, latest: string, url: string): seq<Effect> {
    [AskUpdate(UpdateQuestion(latest, env.vscodeDir), ["Yes", "No"])] +
    if answers.update == Some("Yes") then
      var run := UpdateVSCode(env, DownloadFile(server, url), answers.close, url);
      run.effects + (if run.failure.Some? then [ShowError(CheckFailed(ErrorText(run.failure.value)))] else [])
    else [Log(UpdateCancelled)]
  }

  /** The `portable-mode-update.checkVersion` command. `fetched` is the
      parsed latest release, or the message of the error fetching it. */
  function CheckVersion(env: Environment, fetched: Result<ReleaseInfo, string>, server: Server, answers: Answers): seq<Effect> {
    match fetched
    case Failure(message) => [ShowError(CheckFailed(ErrorText(message)))]
    case Success(release) =>
      var latest := StripTag(release.tagName);
      Header(env, latest) +
      if !IsNewer(latest, env.currentVersion) then [Log(AlreadyLatest)]
      else match OfferedUrl(env, release)
        case None => [Log(NotSupported(env.platform))]
        case Some(url) => Offer(env, server, answers, latest, url)
  }

  // ---------------------------------------------------------------------
  // Effects other than log lines
  // ---------------------------------------------------------------------

  /** The trace without its log lines. */
  function Actions(t: seq<Effect>): seq<Effect>
    decreases |t|
  {
    if |t| == 0 then [] else (if t[0].Log? then [] else [t[0]]) + Actions(t[1..])
  }

  /** An effect is an action of the trace exactly when it occurs in the
      trace and is not a log line. */
  lemma {:induction false} ActionsMembership(t: seq<Effect>, e: Effect)
    ensures e in Actions(t) <==> e in t && !e.Log?
    decreases |t|
  {
    if |t| > 0 {
      ActionsMembership(t[1..], e);
      assert t == [t[0]] + t[1..];
    }
  }

  lemma {:induction false} ActionsAppend(a: seq<Effect>, b: seq<Effect>)
    ensures Actions(a + b) == Actions(a) + Actions(b)
    decreases |a|
  {
    if |a| == 0 {
      assert a + b == b;
    } else {
      assert (a + b)[1..] == a[1..] + b;
      ActionsAppend(a[1..], b);
    }
  }

  lemma ActionsOne(e: Effect)
    ensures Actions([e]) == if e.Log? then [] else [e]
  {
    assert [e][1..] == [];
  }

  lemma ActionsParagraph(m: Message)
    ensures Actions(Paragraph(m)) == []
  {
    assert Paragraph(m) == [Log(m)] + [Log(Blank)];
    ActionsAppend([Log(m)], [Log(Blank)]);
    ActionsOne(Log(m));
    ActionsOne(Log(Blank));
  }

  predicate Asks(t: seq<Effect>) {
    exists e :: e in t && e.AskUpdate?
  }

  predicate Downloads(t: seq<Effect>) {
    exists e :: e in t && e.DownloadArchive?
  }

  predicate WritesScript(t: seq<Effect>) {
    exists e :: e in t && e.WriteScript?
  }

  /** The editor is left running: no script is launched and no close is
      requested. */
  predicate LeavesEditorRunning(t: seq<Effect>) {
    forall e :: e in t ==> !e.Exec? && !e.Spawn? && !e.CloseWindow?
  }

  predicate Closes(t: seq<Effect>) {
    exists e :: e in t && e.CloseWindow?
  }

  /** The command gets as far as asking whether to update. */
  predicate Offered(env: Environment, fetched: Result<ReleaseInfo, string>) {
    && fetched.Success?
    && IsNewer(StripTag(fetched.value.tagName), env.currentVersion)
    && OfferedUrl(env, fetched.value).Some?
  }

  // ---------------------------------------------------------------------
  // updateVSCode, action by action
  // ---------------------------------------------------------------------

  lemma NoteIsQuiet(env: Environment)
    ensures Actions(if ConfirmBeforeClose(env) != "never" then Paragraph(ConfirmBeforeCloseNote(ConfirmBeforeClose(env))) else []) == []
  {
    if ConfirmBeforeClose(env) != "never" {
      ActionsParagraph(ConfirmBeforeCloseNote(ConfirmBeforeClose(env)));
    }
  }

  lemma LaunchPosix(env: Environment, scriptPath: string, closeAnswer: Option<string>)
    requires !IsWin32(env.platform)
    ensures Actions(Launch(env, scriptPath, closeAnswer)) == [Spawn("bash", [scriptPath], true), CloseWindow(CloseDelayMs)]
  {
    var confirm := ConfirmBeforeClose(env);
    var note := if confirm != "never" then Paragraph(ConfirmBeforeCloseNote(confirm)) else [];
    NoteIsQuiet(env);
    ActionsAppend(note, [Spawn("bash", [scriptPath], true)] + [CloseWindow(CloseDelayMs)]);
    ActionsAppend([Spawn("bash", [scriptPath], true)], [CloseWindow(CloseDelayMs)]);
    ActionsOne(Spawn("bash", [scriptPath], true));
    ActionsOne(CloseWindow(CloseDelayMs));
  }

  lemma LaunchWin32(env: Environment, scriptPath: string, closeAnswer: Option<string>)
    requires IsWin32(env.platform)
    ensures Actions(Launch(env, scriptPath, closeAnswer)) ==
              [Exec(PowerShellCommand(scriptPath))] +
              (if ConfirmBeforeClose(env) == "never" then [CloseWindow(CloseDelayMs)]
               else [ShowInfo(CloseManually, CloseNow)] + (if closeAnswer == Some(CloseNow) then [CloseWindow(0)] else []))
  {
    var confirm := ConfirmBeforeClose(env);
    var note := if confirm != "never" then Paragraph(ConfirmBeforeCloseNote(confirm)) else [];
    var close := if closeAnswer == Some(CloseNow) then [CloseWindow(0)] else [];
    var tail := if confirm == "never" then [CloseWindow(CloseDelayMs)] else [ShowInfo(CloseManually, CloseNow)] + close;
    NoteIsQuiet(env);
    ActionsAppend(note, [Exec(PowerShellCommand(scriptPath))] + tail);
    ActionsAppend([Exec(PowerShellCommand(scriptPath))], tail);
    ActionsOne(Exec(PowerShellCommand(scriptPath)));
    if confirm == "never" {
      ActionsOne(CloseWindow(CloseDelayMs));
    } else {
      ActionsAppend([ShowInfo(CloseManually, CloseNow)], close);
      ActionsOne(ShowInfo(CloseManually, CloseNow));
      if closeAnswer == Some(CloseNow) {
        ActionsOne(CloseWindow(0));
      }
    }
  }

  /** The script written for the archive just downloaded, as a record of
      the template's values. */
  function WrittenScript(env: Environment): Effect {
    WriteScript(ScriptPath(env), ScriptParams(env.platform, DownloadPath(env), env.vscodeDir, Product))
  }

  lemma WriteScriptActions(env: Environment)
    ensures Actions(WriteScriptSteps(env)) ==
              [WrittenScript(env)] + (if !IsWin32(env.platform) then [Chmod(ScriptPath(env), "755")] else [])
  {
    var downloadPath, scriptPath := DownloadPath(env), ScriptPath(env);
    var p1, p2 := Paragraph(DownloadCompleted(downloadPath)), Paragraph(ScriptFile(scriptPath));
    var chmod := if !IsWin32(env.platform) then [Chmod(scriptPath, "755")] else [];
    ActionsParagraph(DownloadCompleted(downloadPath));
    ActionsParagraph(ScriptFile(scriptPath));
    ActionsOne(WrittenScript(env));
    ActionsAppend(p1, [WrittenScript(env)]);
    ActionsAppend(p1 + [WrittenScript(env)], p2);
    ActionsAppend(p1 + [WrittenScript(env)] + p2, chmod);
    if !IsWin32(env.platform) {
      ActionsOne(Chmod(scriptPath, "755"));
    }
  }

  lemma HandoverActions(env: Environment, closeAnswer: Option<string>)
    ensures Actions(Handover(env, closeAnswer)) ==
              if DemoMode(env) then [] else Actions(Launch(env, ScriptPath(env), closeAnswer))
  {
    if DemoMode(env) {
      ActionsOne(Log(DemoBanner));
    } else {
      ActionsParagraph(UpdateStarting);
      ActionsAppend(Paragraph(UpdateStarting), Launch(env, ScriptPath(env), closeAnswer));
    }
  }

  /** After a successful download the script is written, made executable
      outside Windows, and launched unless in demo mode. */
  lemma AfterDownloadActions(env: Environment, closeAnswer: Option<string>)
    ensures Actions(AfterDownload(env, closeAnswer)) ==
              [WrittenScript(env)] +
              (if !IsWin32(env.platform) then [Chmod(ScriptPath(env), "755")] else []) +
              (if DemoMode(env) then [] else Actions(Launch(env, ScriptPath(env), closeAnswer)))
  {
    WriteScriptActions(env);
    HandoverActions(env, closeAnswer);
    ActionsAppend(WriteScriptSteps(env), Handover(env, closeAnswer));
  }

  /** All that `updateVSCode` does besides logging: the download, and only
      when it succeeds, the steps after it. */
  lemma UpdateActions(env: Environment, download: DownloadResult, closeAnswer: Option<string>, url: string)
    ensures Actions(UpdateVSCode(env, download, closeAnswer, url).effects) ==
              [DownloadArchive(url, DownloadPath(env))] +
              (if download.outcome.Rejected? then [] else Actions(AfterDownload(env, closeAnswer)))
  {
    var start := [Log(Downloading(url))] + [DownloadArchive(url, DownloadPath(env))];
    ActionsOne(Log(Downloading(url)));
    ActionsOne(DownloadArchive(url, DownloadPath(env)));
    ActionsAppend([Log(Downloading(url))], [DownloadArchive(url, DownloadPath(env))]);
    ActionsAppend(start, AfterDownload(env, closeAnswer));
  }

  lemma PosixAfterDownload(env: Environment, closeAnswer: Option<string>)
    requires !IsWin32(env.platform) && !DemoMode(env)
    ensures Actions(AfterDownload(env, closeAnswer)) ==
              [WrittenScript(env), Chmod(ScriptPath(env), "755"), Spawn("bash", [ScriptPath(env)], true), CloseWindow(CloseDelayMs)]
  {
    AfterDownloadActions(env, closeAnswer);
    LaunchPosix(env, ScriptPath(env), closeAnswer);
  }

  /** Outside Windows and outside demo mode, a successful download is
      followed by exactly these actions: write the script, make it
      executable, start a detached bash on it, and close the window a
      second later. */
  lemma PosixUpdateActions(env: Environment, download: DownloadResult, closeAnswer: Option<string>, url: string)
    requires !IsWin32(env.platform) && !DemoMode(env)
    requires download.outcome.Resolved?
    ensures Actions(UpdateVSCode(env, download, closeAnswer, url).effects) ==
              [DownloadArchive(url, DownloadPath(env)), WrittenScript(env), Chmod(ScriptPath(env), "755"),
               Spawn("bash", [ScriptPath(env)], true), CloseWindow(CloseDelayMs)]
  {
    UpdateActions(env, download, closeAnswer, url);
    PosixAfterDownload(env, closeAnswer);
  }

  lemma Win32AfterDownload(env: Environment, closeAnswer: Option<string>)
    requires IsWin32(env.platform) && !DemoMode(env)
    ensures Actions(AfterDownload(env, closeAnswer)) ==
              [WrittenScript(env), Exec(PowerShellCommand(ScriptPath(env)))] +
              (if ConfirmBeforeClose(env) == "never" then [CloseWindow(CloseDelayMs)]
               else [ShowInfo(CloseManually, CloseNow)] +
                    (if closeAnswer == Some(CloseNow) then [CloseWindow(0)] else []))
  {
    AfterDownloadActions(env, closeAnswer);
    LaunchWin32(env, ScriptPath(env), closeAnswer);
  }

  /** On Windows outside demo mode, a successful download is followed by
      writing the script (no chmod) and one `start powershell.exe` command;
      the window is closed a second later only when the close confirmation
      is off, and otherwise only if the user picks the close button. */
  lemma Win32UpdateActions(env: Environment, download: DownloadResult, closeAnswer: Option<string>, url: string)
    requires IsWin32(env.platform) && !DemoMode(env)
    requires download.outcome.Resolved?
    ensures Actions(UpdateVSCode(env, download, closeAnswer, url).effects) ==
              [DownloadArchive(url, DownloadPath(env)), WrittenScript(env), Exec(PowerShellCommand(ScriptPath(env)))] +
              (if ConfirmBeforeClose(env) == "never" then [CloseWindow(CloseDelayMs)]
               else [ShowInfo(CloseManually, CloseNow)] +
                    (if closeAnswer == Some(CloseNow) then [CloseWindow(0)] else []))
  {
    UpdateActions(env, download, closeAnswer, url);
    Win32AfterDownload(env, closeAnswer);
  }

  /** In demo mode, after a successful download, the script is written
      (and made executable outside Windows) but never run, and the window
      stays open. */
  lemma DemoUpdateActions(env: Environment, download: DownloadResult, closeAnswer: Option<string>, url: string)
    requires DemoMode(env)
    requires download.outcome.Resolved?
    ensures Actions(UpdateVSCode(env, download, closeAnswer, url).effects) ==
              [DownloadArchive(url, DownloadPath(env)), WrittenScript(env)] +
              (if IsWin32(env.platform) then [] else [Chmod(ScriptPath(env), "755")])
  {
    UpdateActions(env, download, closeAnswer, url);
    AfterDownloadActions(env, closeAnswer);
  }

  /** The update settles as the download does: a failed download ends it
      at once, with no script written and nothing launched, and its error
      is rethrown behind the update prefix; the archive left behind is the
      download's. */
  lemma UpdateSettlesAsDownload(env: Environment, download: DownloadResult, closeAnswer: Option<string>, url: string)
    ensures var run := UpdateVSCode(env, download, closeAnswer, url);
            && (run.failure.Some? <==> download.outcome.Rejected?)
            && run.archive == download.file
    ensures var run := UpdateVSCode(env, download, closeAnswer, url);
            download.outcome.Rejected? ==>
              && Actions(run.effects) == [DownloadArchive(url, DownloadPath(env))]
              && run.failure == Some(UpdateFailurePrefix + ErrorMessage(download.outcome.error))
  {
    UpdateActions(env, download, closeAnswer, url);
  }

  /** On Windows, outside demo mode and after a successful download, the
      extension closes the window exactly when the close confirmation is off
      or the user asks for it. */
  lemma Win32ClosesIff(env: Environment, download: DownloadResult, closeAnswer: Option<string>, url: string)
    requires IsWin32(env.platform) && !DemoMode(env)
    requires download.outcome.Resolved?
    ensures Closes(UpdateVSCode(env, download, closeAnswer, url).effects)
            <==> ConfirmBeforeClose(env) == "never" || closeAnswer == Some(CloseNow)
  {
    var t := UpdateVSCode(env, download, closeAnswer, url).effects;
    Win32UpdateActions(env, download, closeAnswer, url);
    forall e ensures e in t && e.CloseWindow? <==> e in Actions(t) && e.CloseWindow? {
      ActionsMembership(t, e);
    }
    if ConfirmBeforeClose(env) == "never" {
      assert CloseWindow(CloseDelayMs) in Actions(t);
    } else if closeAnswer == Some(CloseNow) {
      assert CloseWindow(0) in Actions(t);
    }
  }

  /** The script is made executable exactly outside Windows. */
  lemma ChmodIff(env: Environment, download: DownloadResult, closeAnswer: Option<string>, url: string)
    requires download.outcome.Resolved?
    ensures (exists e :: e in UpdateVSCode(env, download, closeAnswer, url).effects && e.Chmod?)
            <==> !IsWin32(env.platform)
  {
    if IsWin32(env.platform) {
      Win32NoChmod(env, download, closeAnswer, url);
    } else {
      PosixChmod(env, download, closeAnswer, url);
    }
  }

  lemma Win32NoChmod(env: Environment, download: DownloadResult, closeAnswer: Option<string>, url: string)
    requires download.outcome.Resolved? && IsWin32(env.platform)
    ensures forall e :: e in UpdateVSCode(env, download, closeAnswer, url).effects ==> !e.Chmod?
  {
    var t := UpdateVSCode(env, download, closeAnswer, url).effects;
    if DemoMode(env) {
      DemoUpdateActions(env, download, closeAnswer, url);
    } else {
      Win32UpdateActions(env, download, closeAnswer, url);
    }
    forall e | e in t ensures !e.Chmod? {
      ActionsMembership(t, e);
    }
  }

  lemma PosixChmod(env: Environment, download: DownloadResult, closeAnswer: Option<string>, url: string)
    requires download.outcome.Resolved? && !IsWin32(env.platform)
    ensures Chmod(ScriptPath(env), "755") in UpdateVSCode(env, download, closeAnswer, url).effects
  {
    var t := UpdateVSCode(env, download, closeAnswer, url).effects;
    if DemoMode(env) {
      DemoUpdateActions(env, download, closeAnswer, url);
    } else {
      PosixUpdateActions(env, download, closeAnswer, url);
    }
    ActionsMembership(t, Chmod(ScriptPath(env), "755"));
  }

  /** `updateVSCode` never shows the update question or an error itself;
      the one notification it may show is the "Close VS Code Now" offer,
      and only on Windows. */
  lemma UpdateNeverAsks(env: Environment, download: DownloadResult, closeAnswer: Option<string>, url: string)
    ensures var a := Actions(UpdateVSCode(env, download, closeAnswer, url).effects);
            forall e :: e in a ==>
              && !e.AskUpdate? && !e.ShowError?
              && (e.ShowInfo? ==> IsWin32(env.platform) && e == ShowInfo(CloseManually, CloseNow))
  {
    if download.outcome.Rejected? || DemoMode(env) || !IsWin32(env.platform) {
      NoNotification(env, download, closeAnswer, url);
    } else {
      Win32Notifications(env, download, closeAnswer, url);
    }
  }

  lemma NoNotification(env: Environment, download: DownloadResult, closeAnswer: Option<string>, url: string)
    requires download.outcome.Rejected? || DemoMode(env) || !IsWin32(env.platform)
    ensures forall e :: e in Actions(UpdateVSCode(env, download, closeAnswer, url).effects) ==>
              !e.AskUpdate? && !e.ShowError? && !e.ShowInfo?
  {
    if download.outcome.Rejected? {
      UpdateActions(env, download, closeAnswer, url);
    } else if DemoMode(env) {
      DemoUpdateActions(env, download, closeAnswer, url);
    } else {
      PosixUpdateActions(env, download, closeAnswer, url);
    }
  }

  lemma Win32Notifications(env: Environment, download: DownloadResult, closeAnswer: Option<string>, url: string)
    requires download.outcome.Resolved? && !DemoMode(env) && IsWin32(env.platform)
    ensures forall e :: e in Actions(UpdateVSCode(env, download, closeAnswer, url).effects) ==>
              !e.AskUpdate? && !e.ShowError? && (e.ShowInfo? ==> e == ShowInfo(CloseManually, CloseNow))
  {
    Win32UpdateActions(env, download, closeAnswer, url);
  }

  /** After a failed download `updateVSCode` writes no script and launches
      nothing. */
  lemma FailedUpdateActions(env: Environment, download: DownloadResult, closeAnswer: Option<string>, url: string)
    requires download.outcome.Rejected?
    ensures var a := Actions(UpdateVSCode(env, download, closeAnswer, url).effects);
            forall e :: e in a ==> !e.WriteScript? && !e.Exec? && !e.Spawn? && !e.CloseWindow?
  {
    UpdateActions(env, download, closeAnswer, url);
  }

  /** In demo mode `updateVSCode` launches nothing and leaves the window
      open. */
  lemma DemoLaunchesNothing(env: Environment, download: DownloadResult, closeAnswer: Option<string>, url: string)
    requires DemoMode(env)
    ensures var a := Actions(UpdateVSCode(env, download, closeAnswer, url).effects);
            forall e :: e in a ==> !e.Exec? && !e.Spawn? && !e.CloseWindow?
  {
    if download.outcome.Rejected? {
      FailedUpdateActions(env, download, closeAnswer, url);
    } else {
      DemoUpdateActions(env, download, closeAnswer, url);
    }
  }

  // ---------------------------------------------------------------------
  // The checkVersion command, case by case
  // ---------------------------------------------------------------------

  lemma HeaderQuiet(env: Environment, latest: string)
    ensures Actions(Header(env, latest)) == []
  {
    var banner := if DemoMode(env) then [Log(DemoBanner)] else [];
    ActionsParagraph(PortableDirectory(env.vscodeDir));
    ActionsParagraph(LatestVersion(latest));
    ActionsOne(Log(DemoBanner));
    ActionsOne(Log(CurrentVersion(env.currentVersion)));
    ActionsAppend(Paragraph(PortableDirectory(env.vscodeDir)), banner);
    ActionsAppend(Paragraph(PortableDirectory(env.vscodeDir)) + banner, [Log(CurrentVersion(env.currentVersion))]);
    ActionsAppend(Paragraph(PortableDirectory(env.vscodeDir)) + banner + [Log(CurrentVersion(env.currentVersion))],
                  Paragraph(LatestVersion(latest)));
  }

  /** A failed release fetch only shows the error, as `${error}` renders
      it. */
  lemma FetchFailureShown(env: Environment, message: string, server: Server, answers: Answers)
    ensures CheckVersion(env, Failure(message), server, answers) == [ShowError(CheckFailed(ErrorText(message)))]
  {
  }

  /** When no update is offered the command only logs, and its last line
      says why: the version is current, or no download address exists for
      this platform. */
  lemma NotOfferedActions(env: Environment, fetched: Result<ReleaseInfo, string>, server: Server, answers: Answers)
    requires fetched.Success? && !Offered(env, fetched)
    ensures var t := CheckVersion(env, fetched, server, answers);
            && Actions(t) == []
            && |t| > 0
            && t[|t| - 1] == if !IsNewer(StripTag(fetched.value.tagName), env.currentVersion) then Log(AlreadyLatest)
                             else Log(NotSupported(env.platform))
  {
    var latest := StripTag(fetched.value.tagName);
    var last := if !IsNewer(latest, env.currentVersion) then Log(AlreadyLatest) else Log(NotSupported(env.platform));
    assert CheckVersion(env, fetched, server, answers) == Header(env, latest) + [last];
    HeaderQuiet(env, latest);
    ActionsOne(last);
    ActionsAppend(Header(env, latest), [last]);
  }

  /** When an update is offered and not accepted, the question is the only
      action, and the command logs that the update was cancelled. */
  lemma DeclinedActions(env: Environment, fetched: Result<ReleaseInfo, string>, server: Server, answers: Answers)
    requires Offered(env, fetched) && answers.update != Some("Yes")
    ensures var t := CheckVersion(env, fetched, server, answers);
            && Actions(t) == [AskUpdate(UpdateQuestion(StripTag(fetched.value.tagName), env.vscodeDir), ["Yes", "No"])]
            && |t| > 0 && t[|t| - 1] == Log(UpdateCancelled)
  {
    var latest := StripTag(fetched.value.tagName);
    var ask := AskUpdate(UpdateQuestion(latest, env.vscodeDir), ["Yes", "No"]);
    HeaderQuiet(env, latest);
    ActionsOne(ask);
    ActionsOne(Log(UpdateCancelled));
    ActionsAppend([ask], [Log(UpdateCancelled)]);
    ActionsAppend(Header(env, latest), [ask] + [Log(UpdateCancelled)]);
  }

  lemma OfferAcceptedActions(env: Environment, server: Server, answers: Answers, latest: string, url: string)
    requires answers.update == Some("Yes")
    ensures var run := UpdateVSCode(env, DownloadFile(server, url), answers.close, url);
            Actions(Offer(env, server, answers, latest, url)) ==
              [AskUpdate(UpdateQuestion(latest, env.vscodeDir), ["Yes", "No"])] + Actions(run.effects) +
              (if run.failure.Some? then [ShowError(CheckFailed(ErrorText(run.failure.value)))] else [])
  {
    var run := UpdateVSCode(env, DownloadFile(server, url), answers.close, url);
    var ask := AskUpdate(UpdateQuestion(latest, env.vscodeDir), ["Yes", "No"]);
    var err := if run.failure.Some? then [ShowError(CheckFailed(ErrorText(run.failure.value)))] else [];
    ActionsOne(ask);
    if run.failure.Some? {
      ActionsOne(ShowError(CheckFailed(ErrorText(run.failure.value))));
    }
    ActionsAppend(run.effects, err);
    ActionsAppend([ask], run.effects + err);
  }

  /** When an update is offered and accepted, the question is followed by
      the update's actions and, if the update failed, by the error shown
      for it, last. */
  lemma AcceptedActions(env: Environment, fetched: Result<ReleaseInfo, string>, server: Server, answers: Answers)
    requires Offered(env, fetched) && answers.update == Some("Yes")
    ensures var url := OfferedUrl(env, fetched.value).value;
            var run := UpdateVSCode(env, DownloadFile(server, url), answers.close, url);
            var t := CheckVersion(env, fetched, server, answers);
            && Actions(t) ==
                 [AskUpdate(UpdateQuestion(StripTag(fetched.value.tagName), env.vscodeDir), ["Yes", "No"])] +
                 Actions(run.effects) +
                 (if run.failure.Some? then [ShowError(CheckFailed(ErrorText(run.failure.value)))] else [])
            && (run.failure.Some? ==> t[|t| - 1] == ShowError(CheckFailed(ErrorText(run.failure.value))))
  {
    var latest := StripTag(fetched.value.tagName);
    var url := OfferedUrl(env, fetched.value).value;
    HeaderQuiet(env, latest);
    OfferAcceptedActions(env, server, answers, latest, url);
    ActionsAppend(Header(env, latest), Offer(env, server, answers, latest, url));
  }

  // ---------------------------------------------------------------------
  // The checkVersion command, property by property
  // ---------------------------------------------------------------------

  /** Whether a trace asks, downloads, writes or launches is decided by its
      actions alone. */
  lemma DecidedByActions(t: seq<Effect>)
    ensures Asks(t) <==> exists e :: e in Actions(t) && e.AskUpdate?
    ensures Downloads(t) <==> exists e :: e in Actions(t) && e.DownloadArchive?
    ensures WritesScript(t) <==> exists e :: e in Actions(t) && e.WriteScript?
    ensures LeavesEditorRunning(t) <==> forall e :: e in Actions(t) ==> !e.Exec? && !e.Spawn? && !e.CloseWindow?
  {
    forall e {
      ActionsMembership(t, e);
    }
  }

  /** The user is asked exactly when the fetch succeeded, the release is
      newer by string order, and a truthy download address exists. */
  lemma AsksIff(env: Environment, fetched: Result<ReleaseInfo, string>, server: Server, answers: Answers)
    ensures Asks(CheckVersion(env, fetched, server, answers)) <==> Offered(env, fetched)
  {
    var t := CheckVersion(env, fetched, server, answers);
    DecidedByActions(t);
    if fetched.Failure? {
      FetchFailureShown(env, fetched.error, server, answers);
      ActionsOne(ShowError(CheckFailed(ErrorText(fetched.error))));
    } else if !Offered(env, fetched) {
      NotOfferedActions(env, fetched, server, answers);
    } else if answers.update != Some("Yes") {
      DeclinedActions(env, fetched, server, answers);
      assert Actions(t)[0] in Actions(t);
    } else {
      AcceptedActions(env, fetched, server, answers);
      assert Actions(t)[0] in Actions(t);
    }
  }

  /** Only the exact answer 'Yes' to an offered update leads to a
      download. */
  lemma DownloadsIff(env: Environment, fetched: Result<ReleaseInfo, string>, server: Server, answers: Answers)
    ensures Downloads(CheckVersion(env, fetched, server, answers)) <==> Offered(env, fetched) && answers.update == Some("Yes")
  {
    var t := CheckVersion(env, fetched, server, answers);
    DecidedByActions(t);
    if fetched.Failure? {
      FetchFailureShown(env, fetched.error, server, answers);
      ActionsOne(ShowError(CheckFailed(ErrorText(fetched.error))));
    } else if !Offered(env, fetched) {
      NotOfferedActions(env, fetched, server, answers);
    } else if answers.update != Some("Yes") {
      DeclinedActions(env, fetched, server, answers);
    } else {
      var url := OfferedUrl(env, fetched.value).value;
      AcceptedActions(env, fetched, server, answers);
      UpdateActions(env, DownloadFile(server, url), answers.close, url);
      assert DownloadArchive(url, DownloadPath(env)) in Actions(t);
    }
  }

  /** In demo mode the command never launches the script nor closes the
      window, whatever the release and the answers. */
  lemma DemoLeavesEditorRunning(env: Environment, fetched: Result<ReleaseInfo, string>, server: Server, answers: Answers)
    requires DemoMode(env)
    ensures LeavesEditorRunning(CheckVersion(env, fetched, server, answers))
  {
    var t := CheckVersion(env, fetched, server, answers);
    DecidedByActions(t);
    if fetched.Failure? {
      FetchFailureShown(env, fetched.error, server, answers);
      ActionsOne(ShowError(CheckFailed(ErrorText(fetched.error))));
    } else if !Offered(env, fetched) {
      NotOfferedActions(env, fetched, server, answers);
    } else if answers.update != Some("Yes") {
      DeclinedActions(env, fetched, server, answers);
    } else {
      AcceptedActions(env, fetched, server, answers);
      var url := OfferedUrl(env, fetched.value).value;
      DemoLaunchesNothing(env, DownloadFile(server, url), answers.close, url);
    }
  }

  /** An accepted update whose download fails writes no script, launches
      nothing, and ends by showing the download error behind both
      prefixes. */
  lemma DownloadFailureReported(env: Environment, fetched: Result<ReleaseInfo, string>, server: Server, answers: Answers)
    requires Offered(env, fetched) && answers.update == Some("Yes")
    requires DownloadFile(server, OfferedUrl(env, fetched.value).value).outcome.Rejected?
    ensures var t := CheckVersion(env, fetched, server, answers);
            var e := DownloadFile(server, OfferedUrl(env, fetched.value).value).outcome.error;
            && !WritesScript(t)
            && LeavesEditorRunning(t)
            && t[|t| - 1] == ShowError(CheckFailed(ErrorText(UpdateFailurePrefix + ErrorMessage(e))))
  {
    FailedDownloadActions(env, fetched, server, answers);
    var t := CheckVersion(env, fetched, server, answers);
    QuietAfterDownload(t, Actions(t)[0], Actions(t)[1], Actions(t)[2]);
  }

  /** A trace whose actions are a question, a download and an error writes
      nothing and launches nothing. */
  lemma QuietAfterDownload(t: seq<Effect>, ask: Effect, download: Effect, error: Effect)
    requires Actions(t) == [ask, download, error]
    requires ask.AskUpdate? && download.DownloadArchive? && error.ShowError?
    ensures !WritesScript(t) && LeavesEditorRunning(t)
  {
    DecidedByActions(t);
  }

  lemma FailedDownloadActions(env: Environment, fetched: Result<ReleaseInfo, string>, server: Server, answers: Answers)
    requires Offered(env, fetched) && answers.update == Some("Yes")
    requires DownloadFile(server, OfferedUrl(env, fetched.value).value).outcome.Rejected?
    ensures var t := CheckVersion(env, fetched, server, answers);
            var e := DownloadFile(server, OfferedUrl(env, fetched.value).value).outcome.error;
            && Actions(t) == [AskUpdate(UpdateQuestion(StripTag(fetched.value.tagName), env.vscodeDir), ["Yes", "No"]),
                              DownloadArchive(OfferedUrl(env, fetched.value).value, DownloadPath(env)),
                              ShowError(CheckFailed(ErrorText(UpdateFailurePrefix + ErrorMessage(e))))]
            && t[|t| - 1] == ShowError(CheckFailed(ErrorText(UpdateFailurePrefix + ErrorMessage(e))))
  {
    var url := OfferedUrl(env, fetched.value).value;
    AcceptedActions(env, fetched, server, answers);
    UpdateSettlesAsDownload(env, DownloadFile(server, url), answers.close, url);
  }

  /** Outside Windows, a release without a matching archive is reported as
      unsupported, and nothing is asked. */
  lemma UnsupportedPlatform(env: Environment, release: ReleaseInfo, server: Server, answers: Answers)
    requires !IsWin32(env.platform)
    requires IsNewer(StripTag(release.tagName), env.currentVersion)
    requires forall j :: 0 <= j < |release.assets| ==> !IsWindowsZip(release.assets[j])
    ensures var t := CheckVersion(env, Success(release), server, answers);
            && !Asks(t)
            && t[|t| - 1] == Log(NotSupported(env.platform))
  {
    AsksIff(env, Success(release), server, answers);
    NotOfferedActions(env, Success(release), server, answers);
  }

  /** On Windows, a release without a matching archive falls back to the
      configured address, or the default one when unset; an empty setting
      is falsy and is reported as unsupported. */
  lemma Win32Fallback(env: Environment, release: ReleaseInfo)
    requires IsWin32(env.platform)
    requires IsNewer(StripTag(release.tagName), env.currentVersion)
    requires forall j :: 0 <= j < |release.assets| ==> !IsWindowsZip(release.assets[j])
    ensures env.win32DownloadUrl == Some("") <==> !Offered(env, Success(release))
    ensures env.win32DownloadUrl != Some("") ==>
              OfferedUrl(env, release) == Some(env.win32DownloadUrl.GetOr(DefaultWin32DownloadUrl))
  {
  }

  // ---------------------------------------------------------------------
  // An end-to-end run
  // ---------------------------------------------------------------------

  /** Linux, `TEMP` unset, editor 1.1.0, a release v1.2.3 with a Windows
      archive, a server that answers 200, and the user says 'Yes'. */
  function ExampleEnv(): Environment {
    Environment("linux", "", "/opt/vscode", "1.1.0", None, None, None)
  }

  function ExampleRelease(): ReleaseInfo {
    ReleaseInfo("v1.2.3", [Asset("VSCode-win32-x64-1.2.3.zip", "W")])
  }

  lemma ExampleIsOffered()
    ensures Offered(ExampleEnv(), Success(ExampleRelease()))
    ensures OfferedUrl(ExampleEnv(), ExampleRelease()) == Some("W")
    ensures StripTag(ExampleRelease().tagName) == "1.2.3"
  {
    assert "v1.2.3"[1..] == "1.2.3";
    assert "1.1.0"[1..] == ".1.0" && "1.2.3"[1..] == ".2.3";
    assert ".1.0"[1..] == "1.0" && ".2.3"[1..] == "2.3";
    assert IsNewer("1.2.3", "1.1.0");
    WindowsArchiveMatches();
    AssetBeatsFallback([], Asset("VSCode-win32-x64-1.2.3.zip", "W"), [], "linux", None);
    assert [] + [Asset("VSCode-win32-x64-1.2.3.zip", "W")] + [] == ExampleRelease().assets;
  }

  /** With `TEMP` unset the archive and the script land in the working
      directory under their bare names. */
  lemma ExamplePaths()
    ensures DownloadPath(ExampleEnv()) == "vscode-portable-mode-update.zip"
    ensures ScriptPath(ExampleEnv()) == "vscode-portable-mode-update.sh"
  {
  }

  /** A server that answers every request with 200 and an empty body. */
  function ExampleServer(): Server {
    u => Response(200, "OK", None, [])
  }

  /** The update half of the example run. */
  lemma ExampleUpdate()
    ensures Actions(UpdateVSCode(ExampleEnv(), DownloadFile(ExampleServer(), "W"), None, "W").effects) ==
            [DownloadArchive("W", "vscode-portable-mode-update.zip"),
             WriteScript("vscode-portable-mode-update.sh",
                         ScriptParams("linux", "vscode-portable-mode-update.zip", "/opt/vscode", Product)),
             Chmod("vscode-portable-mode-update.sh", "755"),
             Spawn("bash", ["vscode-portable-mode-update.sh"], true),
             CloseWindow(1000)]
  {
    ExamplePaths();
    assert DownloadFile(ExampleServer(), "W").outcome.Resolved?;
    PosixUpdateActions(ExampleEnv(), DownloadFile(ExampleServer(), "W"), None, "W");
  }

  /** The whole command, without its log lines: the question about 1.2.3,
      then the update steps of `ExampleUpdate`. */
  lemma PosixEndToEnd()
    ensures Actions(CheckVersion(ExampleEnv(), Success(ExampleRelease()), ExampleServer(), Answers(Some("Yes"), None))) ==
            [AskUpdate(UpdateQuestion("1.2.3", "/opt/vscode"), ["Yes", "No"])] +
            Actions(UpdateVSCode(ExampleEnv(), DownloadFile(ExampleServer(), "W"), None, "W").effects)
  {
    ExampleIsOffered();
    AcceptedActions(ExampleEnv(), Success(ExampleRelease()), ExampleServer(), Answers(Some("Yes"), None));
  }
}

=== FILE: release.dfy ===
/** Release metadata as returned by the release registry, and the choice
    of the archive to download from it. */
module Release {
  import opened Wrappers
  import opened Strings

  /** One downloadable artifact of a release. */
  datatype Asset = Asset(name: string, browserDownloadUrl: string)

  /** The parsed `{tag_name, assets}` body of the latest-release request. */
  datatype ReleaseInfo = ReleaseInfo(tagName: string, assets: seq<Asset>)

  /** The download address used on Windows when no asset matches and the
      `win32DownloadURL` setting is not configured. */
  const DefaultWin32DownloadUrl: string :=
    "https://code.visualstudio.com/sha/download?build=stable&os=win32-x64-archive"

  /** `process.platform` names the Windows family this way. */
  predicate IsWin32(platform: string) {
    platform == "win32"
  }

  /** The asset test: a `.zip` whose name mentions `win32-x64`. */
  predicate IsWindowsZip(a: Asset) {
    EndsWith(a.name, ".zip") && Includes(a.name, "win32-x64")
  }

  /** `k` is the position of the first asset passing the test. */
  predicate IsFirstMatch(assets: seq<Asset>, k: int) {
    && 0 <= k < |assets|
    && IsWindowsZip(assets[k])
    && forall j :: 0 <= j < k ==> !IsWindowsZip(assets[j])
  }

  /** `assets.find(...)`, as the position of the asset it returns. */
  function FindWindowsZip(assets: seq<Asset>): (r: Option<nat>)
    ensures r.Some? ==> IsFirstMatch(assets, r.value)
    ensures r.None? <==> forall j :: 0 <= j < |assets| ==> !IsWindowsZip(assets[j])
    decreases |assets|
  {
    if |assets| == 0 then None
    else if IsWindowsZip(assets[0]) then Some(0)
    else match FindWindowsZip(assets[1..])
      case None => None
      case Some(k) => Some(k + 1)
  }

  /** The download address chosen in the `checkVersion` command: the first
      matching asset's URL on every platform; failing that, the configured
      (or default) fallback on Windows and nothing elsewhere. */
  function SelectDownloadUrl(assets: seq<Asset>, platform: string, win32Setting: Option<string>): (r: Option<string>)
    ensures forall k :: IsFirstMatch(assets, k) ==> r == Some(assets[k].browserDownloadUrl)
    ensures (forall j :: 0 <= j < |assets| ==> !IsWindowsZip(assets[j])) ==>
              r == (if IsWin32(platform) then Some(win32Setting.GetOr(DefaultWin32DownloadUrl)) else None)
  {
    match FindWindowsZip(assets)
    case Some(k) => Some(assets[k].browserDownloadUrl)
    case None =>
      if IsWin32(platform) then Some(win32Setting.GetOr(DefaultWin32DownloadUrl)) else None
  }

  /** On any platform, an archive named like `...-win32-x64-...zip` wins over
      the fallback; a later matching asset never does. */
  lemma AssetBeatsFallback(pre: seq<Asset>, a: Asset, post: seq<Asset>, platform: string, setting: Option<string>)
    requires forall j :: 0 <= j < |pre| ==> !IsWindowsZip(pre[j])
    requires IsWindowsZip(a)
    ensures SelectDownloadUrl(pre + [a] + post, platform, setting) == Some(a.browserDownloadUrl)
  {
    var assets := pre + [a] + post;
    assert IsFirstMatch(assets, |pre|) by {
      forall j | 0 <= j < |pre| ensures !IsWindowsZip(assets[j]) {
        assert assets[j] == pre[j];
      }
    }
  }

  lemma TarballIsNotWindowsZip()
    ensures !IsWindowsZip(Asset("code-linux-x64.tar.gz", "L"))
  {
    var a := Asset("code-linux-x64.tar.gz", "L");
    assert !EndsWith(a.name, ".zip");
  }

  lemma WindowsArchiveMatches()
    ensures IsWindowsZip(Asset("VSCode-win32-x64-1.2.3.zip", "W"))
  {
    var a := Asset("VSCode-win32-x64-1.2.3.zip", "W");
    assert EndsWith(a.name, ".zip");
    assert a.name == "VSCode-" + ("win32-x64" + "-1.2.3.zip");
    IncludesPrefix("win32-x64", "-1.2.3.zip");
    IncludesAfterPrefix("VSCode-", "win32-x64" + "-1.2.3.zip", "win32-x64");
  }

  lemma SecondOfThree(a: Asset, b: Asset, c: Asset, platform: string, setting: Option<string>)
    requires !IsWindowsZip(a) && IsWindowsZip(b)
    ensures SelectDownloadUrl([a, b, c], platform, setting) == Some(b.browserDownloadUrl)
  {
    AssetBeatsFallback([a], b, [c], platform, setting);
    assert [a] + [b] + [c] == [a, b, c];
  }

  /** A concrete release: on Linux the Windows archive is still picked, and
      the later Windows archive is not. */
  lemma SelectExample()
    ensures SelectDownloadUrl([Asset("code-linux-x64.tar.gz", "L"), Asset("VSCode-win32-x64-1.2.3.zip", "W"),
                               Asset("VSCode-win32-x64-1.2.4.zip", "W2")], "linux", None) == Some("W")
  {
    TarballIsNotWindowsZip();
    WindowsArchiveMatches();
    SecondOfThree(Asset("code-linux-x64.tar.gz", "L"), Asset("VSCode-win32-x64-1.2.3.zip", "W"),
                  Asset("VSCode-win32-x64-1.2.4.zip", "W2"), "linux", None);
  }
}

=== FILE: script.dfy ===
/** The update script written by `updateVSCode`: PowerShell on Windows,
    bash elsewhere. It is built from a template literal whose lines are
    given here one by one; the download path, the installation directory
    and the product name are interpolated literally, without quoting or
    escaping. */
module UpdateScript {
  import opened Strings
  import opened Release

  /** The file extension of the script. */
  function ScriptExtension(platform: string): string {
    if IsWin32(platform) then "ps1" else "sh"
  }

  /** The PowerShell dialect, one string per line (`src/extension.ts` lines
      113-147). */
  function PowerShellLines(downloadPath: string, vscodeDir: string, product: string): seq<string> {
    PowerShellVariables(downloadPath, vscodeDir) + PowerShellBody(product)
  }

  /** Template lines 1-2: the two values, interpolated between single
      quotes. */
  function PowerShellVariables(downloadPath: string, vscodeDir: string): seq<string> {
    [PsDownloadPathLine(downloadPath), PsVscodeDirLine(vscodeDir)]
  }

  function PsDownloadPathLine(downloadPath: string): string {
    "$downloadPath = '" + downloadPath + "'"
  }

  function PsVscodeDirLine(vscodeDir: string): string {
    "$vscodeDir = '" + vscodeDir + "'"
  }

  /** Template lines 3-35. */
  function PowerShellBody(product: string): seq<string> {
    PowerShellWait() + PowerShellExpand() + PowerShellFinish(product)
  }

  /** Template lines 3-19: poll once a second, at most 30 times, for a
      process running `Code.exe` from the installation; then ask the
      operator to close it by hand if it is still there. */
  function PowerShellWait(): seq<string> {
    [ "",
      PsWaitingNotice, PsExePath, PsFindProcess, PsWaitInit,
      WaitLoopHeader, PsSleep, PsCount, PsFindAgain, PsProgress, "}",
      "",
      "if ($vscodeProcess) {", PsStillRunning, "    Read-Host", "}",
      "" ]
  }

  const PsWaitingNotice := "Write-Host 'Waiting for VS Code to close...'"
  const PsExePath := "$vscodeExePath = Join-Path $vscodeDir \"Code.exe\""
  const PsFindProcess :=
    "$vscodeProcess = Get-Process | Where-Object { $_.Path -eq $vscodeExePath } -ErrorAction SilentlyContinue"
  const PsWaitInit := "$waitTime = 0"
  /** The loop runs while the process is found and fewer than 30 seconds
      have been waited. */
  const WaitLoopHeader := "while ($vscodeProcess -and $waitTime -lt 30) {"
  const PsSleep := "    Start-Sleep -Seconds 1"
  const PsCount := "    $waitTime++"
  const PsFindAgain :=
    "    $vscodeProcess = Get-Process | Where-Object { $_.Path -eq $vscodeExePath } -ErrorAction SilentlyContinue"
  const PsProgress :=
    "    Write-Host \"Waiting for VS Code at $vscodeExePath to close... ($waitTime/30 seconds)\""
  const PsStillRunning :=
    "    Write-Host \"VS Code is still running from $vscodeExePath. Please close it manually and press Enter to continue.\""

  /** Template lines 20-30: expand the archive over the installation,
      overwriting, then delete it. */
  function PowerShellExpand(): seq<string> {
    [ PsProgressOff,
      "",
      PsBlank, PsExpandingNotice, PsFromNotice, PsToNotice,
      ExpandArchive,
      PsBlank, PsDeletingNotice, PsFromNotice,
      RemoveArchive ]
  }

  const PsProgressOff := "$ProgressPreference = 'SilentlyContinue'"
  const PsBlank := "Write-Host ''"
  const PsExpandingNotice := "Write-Host 'Expanding archive...'"
  const PsFromNotice := "Write-Host ' from: ' $downloadPath"
  const PsToNotice := "Write-Host ' to:   ' $vscodeDir"
  const ExpandArchive := "Expand-Archive -Force $downloadPath $vscodeDir"
  const PsDeletingNotice := "Write-Host 'Deleting archive...'"
  const RemoveArchive := "Remove-Item $downloadPath"

  /** Template lines 31-35: a blank line, the completion notice and a final
      key press. */
  function PowerShellFinish(product: string): seq<string> {
    [PsBlank] + PowerShellClosing(product)
  }

  function PowerShellClosing(product: string): seq<string> {
    [PowerShellNotice(product), PsBlank, PsPressEnter, PsReadHost]
  }

  const PsPressEnter := "Write-Host 'Press Enter to close this window.'"
  const PsReadHost := "Read-Host"

  function PowerShellNotice(product: string): string {
    "Write-Host 'Update complete. This process doesn''t restart " + product + ", you have to restart it manually.'"
  }

  /** The bash dialect, one string per line (`src/extension.ts` lines
      151-167). */
  function BashLines(downloadPath: string, vscodeDir: string, product: string): seq<string> {
    BashVariables(downloadPath, vscodeDir) + BashBody(product)
  }

  /** Template lines 1-4: a fixed two-second pause for the editor to exit,
      then the two values, interpolated between single quotes. */
  function BashVariables(downloadPath: string, vscodeDir: string): seq<string> {
    [Shebang, ShPause, ShDownloadPathLine(downloadPath), ShVscodeDirLine(vscodeDir)]
  }

  const Shebang := "#!/bin/bash"
  const ShPause := "sleep 2"

  function ShDownloadPathLine(downloadPath: string): string {
    "downloadPath='" + downloadPath + "'"
  }

  function ShVscodeDirLine(vscodeDir: string): string {
    "vscodeDir='" + vscodeDir + "'"
  }

  /** Template lines 5-17. */
  function BashBody(product: string): seq<string> {
    BashExpand() + BashFinish(product)
  }

  /** Template lines 5-12: unzip over the installation, overwriting, then
      delete the archive. */
  function BashExpand(): seq<string> {
    [ ShExpandingNotice, ShFromNotice, ShToNotice,
      Unzip,
      ShBlank, ShDeletingNotice, ShFromNotice,
      RemoveZip ]
  }

  const ShExpandingNotice := "echo \"Expanding archive...\""
  const ShFromNotice := "echo \" from: $downloadPath\""
  const ShToNotice := "echo \" to:   $vscodeDir\""
  const Unzip := "unzip -o \"$downloadPath\" -d \"$vscodeDir\""
  const ShBlank := "echo \"\""
  const ShDeletingNotice := "echo \"Deleting archive...\""
  const RemoveZip := "rm \"$downloadPath\""

  /** Template lines 13-17: a blank line, the completion notice and a final
      key press. */
  function BashFinish(product: string): seq<string> {
    [ShBlank] + BashClosing(product)
  }

  function BashClosing(product: string): seq<string> {
    [BashNotice(product), ShBlank, ShPressEnter, ShRead]
  }

  const ShPressEnter := "echo \"Press Enter to close this window.\""
  const ShRead := "read"

  function BashNotice(product: string): string {
    "echo \"Update complete. This process doesn't restart " + product + ", you have to restart it manually.\""
  }

  function ScriptLines(platform: string, downloadPath: string, vscodeDir: string, product: string): seq<string> {
    if IsWin32(platform) then PowerShellLines(downloadPath, vscodeDir, product)
    else BashLines(downloadPath, vscodeDir, product)
  }

  /** The template literal before `.trim()`: a line break after the opening
      backtick, and a line break plus the closing line's indentation before
      the closing one. */
  function TemplateText(platform: string, downloadPath: string, vscodeDir: string, product: string): string {
    "\n" + JoinLines(ScriptLines(platform, downloadPath, vscodeDir, product)) + "\n            "
  }

  /** `scriptContent`: the trimmed template. */
  function ScriptContent(platform: string, downloadPath: string, vscodeDir: string, product: string): string {
    Trim(TemplateText(platform, downloadPath, vscodeDir, product))
  }

  /** The values a script is rendered from. */
  datatype ScriptParams = ScriptParams(platform: string, downloadPath: string, vscodeDir: string, product: string)
  {
    /** The text written to the script file. */
    function Text(): string {
      ScriptContent(platform, downloadPath, vscodeDir, product)
    }
  }

  // ---------------------------------------------------------------------
  // The text is the lines
  // ---------------------------------------------------------------------

  /** What the trimming argument needs of a list of lines: the first line
      begins, and the last line ends, with a visible character. */
  predicate VisibleEnds(lines: seq<string>) {
    && |lines| >= 1
    && |lines[0]| > 0 && !IsWhitespace(lines[0][0])
    && |lines[|lines| - 1]| > 0 && !IsWhitespace(lines[|lines| - 1][|lines[|lines| - 1]| - 1])
  }

  /** Only the first line of the front part and the last line of the back
      part matter. */
  lemma VisibleEndsAppend(front: seq<string>, back: seq<string>)
    requires |front| >= 1 && |front[0]| > 0 && !IsWhitespace(front[0][0])
    requires |back| >= 1 && |back[|back| - 1]| > 0 && !IsWhitespace(back[|back| - 1][|back[|back| - 1]| - 1])
    ensures VisibleEnds(front + back)
  {
    assert (front + back)[0] == front[0];
    assert (front + back)[|front + back| - 1] == back[|back| - 1];
  }

  lemma PowerShellVisibleEnds(downloadPath: string, vscodeDir: string, product: string)
    ensures VisibleEnds(PowerShellLines(downloadPath, vscodeDir, product))
  {
    var front := PowerShellVariables(downloadPath, vscodeDir);
    assert front[0][0] == '$';
    var back := PowerShellBody(product);
    assert back[|back| - 1] == PsReadHost;
    VisibleEndsAppend(front, back);
  }

  lemma BashVisibleEnds(downloadPath: string, vscodeDir: string, product: string)
    ensures VisibleEnds(BashLines(downloadPath, vscodeDir, product))
  {
    var front := BashVariables(downloadPath, vscodeDir);
    assert front[0][0] == '#';
    var back := BashBody(product);
    assert back[|back| - 1] == ShRead;
    VisibleEndsAppend(front, back);
  }

  /** Trimming the padded template gives back the joined lines. */
  lemma TrimTemplate(lines: seq<string>)
    requires VisibleEnds(lines)
    ensures Trim("\n" + JoinLines(lines) + "\n            ") == JoinLines(lines)
  {
    var text := JoinLines(lines);
    JoinFirstLast(lines);
    assert text[0] == lines[0][0];
    var last := lines[|lines| - 1];
    assert text[|text| - 1] == text[|text| - |last|..][|last| - 1] == last[|last| - 1];
    TrimPadded("\n", text, "\n            ");
  }

  /** The script is exactly the template's lines joined by line breaks,
      whatever the interpolated values: both templates start and end with
      a visible character, so trimming removes only the padding around
      them. */
  lemma ContentIsJoinedLines(platform: string, downloadPath: string, vscodeDir: string, product: string)
    ensures ScriptContent(platform, downloadPath, vscodeDir, product)
            == JoinLines(ScriptLines(platform, downloadPath, vscodeDir, product))
  {
    if IsWin32(platform) {
      PowerShellVisibleEnds(downloadPath, vscodeDir, product);
    } else {
      BashVisibleEnds(downloadPath, vscodeDir, product);
    }
    TrimTemplate(ScriptLines(platform, downloadPath, vscodeDir, product));
  }

  // ---------------------------------------------------------------------
  // What each dialect does, in order
  // ---------------------------------------------------------------------

  lemma PowerShellLineFacts(downloadPath: string, vscodeDir: string, product: string)
    ensures var lines := PowerShellLines(downloadPath, vscodeDir, product);
            && |lines| == 35
            && lines[7] == WaitLoopHeader
            && lines[25] == ExpandArchive && lines[29] == RemoveArchive
  {
    PowerShellWaitSteps();
    PowerShellExpandSteps();
    assert |PowerShellFinish(product)| == 5;
  }

  lemma PowerShellWaitSteps()
    ensures |PowerShellWait()| == 17 && PowerShellWait()[5] == WaitLoopHeader
  {
  }

  lemma PowerShellExpandSteps()
    ensures |PowerShellExpand()| == 11
    ensures PowerShellExpand()[6] == ExpandArchive && PowerShellExpand()[10] == RemoveArchive
  {
  }

  /** The PowerShell script assigns the two values, quoted, on its first
      two lines. */
  lemma PowerShellScriptStart(platform: string, downloadPath: string, vscodeDir: string, product: string)
    requires IsWin32(platform)
    ensures ScriptExtension(platform) == "ps1"
    ensures StartsWith(ScriptContent(platform, downloadPath, vscodeDir, product),
                       PsDownloadPathLine(downloadPath) + "\n" + PsVscodeDirLine(vscodeDir) + "\n")
  {
    ContentIsJoinedLines(platform, downloadPath, vscodeDir, product);
    JoinStartsWith(PowerShellVariables(downloadPath, vscodeDir), PowerShellBody(product));
    JoinTwo(PsDownloadPathLine(downloadPath), PsVscodeDirLine(vscodeDir));
  }

  /** It polls for the editor's exit (30 one-second rounds at most) before
      it expands the archive over the installation, and expands before it
      deletes the archive. */
  lemma PowerShellScriptOrder(platform: string, downloadPath: string, vscodeDir: string, product: string)
    requires IsWin32(platform)
    ensures OccursBefore(ScriptContent(platform, downloadPath, vscodeDir, product), WaitLoopHeader, ExpandArchive)
    ensures OccursBefore(ScriptContent(platform, downloadPath, vscodeDir, product), ExpandArchive, RemoveArchive)
  {
    ContentIsJoinedLines(platform, downloadPath, vscodeDir, product);
    var lines := PowerShellLines(downloadPath, vscodeDir, product);
    PowerShellLineFacts(downloadPath, vscodeDir, product);
    JoinOrdersLines(lines, 7, 25);
    JoinOrdersLines(lines, 25, 29);
  }

  /** It ends with the completion notice naming the product, then a blank
      line and a final prompt for Enter. */
  lemma PowerShellScriptEnd(platform: string, downloadPath: string, vscodeDir: string, product: string)
    requires IsWin32(platform)
    ensures EndsWith(ScriptContent(platform, downloadPath, vscodeDir, product),
                     PowerShellNotice(product) + "\n" + PsBlank + "\n" + PsPressEnter + "\n" + PsReadHost)
  {
    ContentIsJoinedLines(platform, downloadPath, vscodeDir, product);
    var v, w, e, f := PowerShellVariables(downloadPath, vscodeDir), PowerShellWait(), PowerShellExpand(), PowerShellFinish(product);
    var c := PowerShellClosing(product);
    JoinEndsWith(v, w + e + f);
    JoinEndsWith(w + e, f);
    JoinEndsWith([PsBlank], c);
    EndsWithTrans(JoinLines(v + (w + e + f)), JoinLines(w + e + f), JoinLines(f));
    EndsWithTrans(JoinLines(v + (w + e + f)), JoinLines(f), JoinLines(c));
    JoinFour(PowerShellNotice(product), PsBlank, PsPressEnter, PsReadHost);
  }

  lemma BashLineFacts(downloadPath: string, vscodeDir: string, product: string)
    ensures var lines := BashLines(downloadPath, vscodeDir, product);
            && |lines| == 17
            && lines[7] == Unzip && lines[11] == RemoveZip
  {
    var e := BashExpand();
    assert |e| == 8 && e[3] == Unzip && e[7] == RemoveZip;
    assert |BashFinish(product)| == 5;
  }

  /** The bash script starts with the shebang line and a two-second pause,
      then assigns the two values, quoted. */
  lemma BashScriptStart(platform: string, downloadPath: string, vscodeDir: string, product: string)
    requires !IsWin32(platform)
    ensures ScriptExtension(platform) == "sh"
    ensures StartsWith(ScriptContent(platform, downloadPath, vscodeDir, product),
                       Shebang + "\n" + ShPause + "\n" + ShDownloadPathLine(downloadPath) + "\n" + ShVscodeDirLine(vscodeDir) + "\n")
  {
    ContentIsJoinedLines(platform, downloadPath, vscodeDir, product);
    JoinStartsWith(BashVariables(downloadPath, vscodeDir), BashBody(product));
    JoinFour(Shebang, ShPause, ShDownloadPathLine(downloadPath), ShVscodeDirLine(vscodeDir));
  }

  /** It unzips over the installation, overwriting, before it removes the
      archive. */
  lemma BashScriptOrder(platform: string, downloadPath: string, vscodeDir: string, product: string)
    requires !IsWin32(platform)
    ensures OccursBefore(ScriptContent(platform, downloadPath, vscodeDir, product), Unzip, RemoveZip)
  {
    ContentIsJoinedLines(platform, downloadPath, vscodeDir, product);
    BashLineFacts(downloadPath, vscodeDir, product);
    JoinOrdersLines(BashLines(downloadPath, vscodeDir, product), 7, 11);
  }

  /** It ends with the completion notice naming the product, then a blank
      line and a final prompt for Enter. */
  lemma BashScriptEnd(platform: string, downloadPath: string, vscodeDir: string, product: string)
    requires !IsWin32(platform)
    ensures EndsWith(ScriptContent(platform, downloadPath, vscodeDir, product),
                     BashNotice(product) + "\n" + ShBlank + "\n" + ShPressEnter + "\n" + ShRead)
  {
    ContentIsJoinedLines(platform, downloadPath, vscodeDir, product);
    var v, e, f := BashVariables(downloadPath, vscodeDir), BashExpand(), BashFinish(product);
    var c := BashClosing(product);
    JoinEndsWith(v, e + f);
    JoinEndsWith(e, f);
    JoinEndsWith([ShBlank], c);
    EndsWithTrans(JoinLines(v + (e + f)), JoinLines(e + f), JoinLines(f));
    EndsWithTrans(JoinLines(v + (e + f)), JoinLines(f), JoinLines(c));
    JoinFour(BashNotice(product), ShBlank, ShPressEnter, ShRead);
  }

  // ---------------------------------------------------------------------
  // What the PowerShell wait loop does when it runs
  // ---------------------------------------------------------------------

  /** The cap on the wait, in one-second rounds. */
  const WaitLimit: nat := 30

  /** Template lines 4-19 run against an observation of the editor:
      `running(t)` says whether `Code.exe` from the installation is found
      after `t` seconds. Returns the seconds waited and whether the script
      then stops to ask for a manual close. */
  method WaitForEditorExit(running: nat -> bool) returns (waited: nat, askToClose: bool)
    ensures waited <= WaitLimit
    // it keeps waiting while the editor is found ...
    ensures forall t :: 0 <= t < waited ==> running(t)
    // ... and stops at the first probe that misses it, or at the cap
    ensures waited < WaitLimit ==> !running(waited)
    // it asks for a manual close exactly when the editor outlived the cap
    ensures askToClose <==> waited == WaitLimit && running(WaitLimit)
  {
    var found := running(0);
    waited := 0;
    while found && waited < WaitLimit
      invariant waited <= WaitLimit
      invariant found == running(waited)
      invariant forall t :: 0 <= t < waited ==> running(t)
      decreases WaitLimit - waited
    {
      waited := waited + 1;
      found := running(waited);
    }
    askToClose := found;
  }
}

=== FILE: strings.dfy ===
/** The JavaScript string operations the extension relies on, as pure
    functions over `seq<char>`: `startsWith`, `endsWith`, `includes`, the
    relational `<`/`>` on strings, `trim`, and joining on line breaks.
    Each recursive definition is paired with an independent reference
    definition or a contract that characterises it. */
module Strings {

  /** `s.startsWith(p)` */
  predicate StartsWith(s: string, p: string) {
    |p| <= |s| && s[..|p|] == p
  }

  /** `s.endsWith(p)` */
  predicate EndsWith(s: string, p: string) {
    |p| <= |s| && s[|s| - |p|..] == p
  }

  /** `sub` occurs in `s` starting at index `i`. */
  predicate OccursAt(s: string, sub: string, i: int) {
    0 <= i && i + |sub| <= |s| && s[i..i + |sub|] == sub
  }

  /** `s.includes(sub)`: tries every start position from left to right. */
  predicate Includes(s: string, sub: string)
    decreases |s|
  {
    StartsWith(s, sub) || (|s| > 0 && Includes(s[1..], sub))
  }

  /** The scan finds `sub` exactly when it occurs somewhere in `s`. */
  lemma {:induction false} IncludesIffOccurs(s: string, sub: string)
    ensures Includes(s, sub) <==> exists i :: OccursAt(s, sub, i)
    decreases |s|
  {
    if StartsWith(s, sub) {
      assert OccursAt(s, sub, 0);
    } else if |s| > 0 {
      IncludesIffOccurs(s[1..], sub);
      if Includes(s[1..], sub) {
        var i :| OccursAt(s[1..], sub, i);
        assert s[1..][i..i + |sub|] == s[i + 1..i + 1 + |sub|];
        assert OccursAt(s, sub, i + 1);
      }
      if exists i :: OccursAt(s, sub, i) {
        var i :| OccursAt(s, sub, i);
        assert !OccursAt(s, sub, 0);
        assert s[1..][i - 1..i - 1 + |sub|] == s[i..i + |sub|];
        assert OccursAt(s[1..], sub, i - 1);
      }
    }
  }

  /** Prepending text keeps every occurrence. */
  lemma {:induction false} IncludesAfterPrefix(p: string, t: string, sub: string)
    requires Includes(t, sub)
    ensures Includes(p + t, sub)
    decreases |p|
  {
    if |p| > 0 {
      assert (p + t)[1..] == p[1..] + t;
      IncludesAfterPrefix(p[1..], t, sub);
    } else {
      assert p + t == t;
    }
  }

  /** A string includes each of its prefixes. */
  lemma IncludesPrefix(s: string, t: string)
    ensures Includes(s + t, s)
  {
    assert (s + t)[..|s|] == s;
  }

  // ---------------------------------------------------------------------
  // Relational comparison of strings
  // ---------------------------------------------------------------------

  /** JavaScript's `a < b` on two strings: the first differing character
      decides, and a proper prefix is below the longer string. (JavaScript
      compares UTF-16 code units; here characters are compared as code
      points, which agree on every character outside the surrogate range
      and the private-use/specials block above it.) */
  predicate Less(a: string, b: string)
    decreases |a|
  {
    if |b| == 0 then false
    else if |a| == 0 then true
    else if a[0] != b[0] then a[0] < b[0]
    else Less(a[1..], b[1..])
  }

  /** Reference definition: `a` and `b` agree on the first `k` characters,
      and then either `a` ends while `b` goes on, or `a[k] < b[k]`. */
  predicate BelowAt(a: string, b: string, k: int) {
    && 0 <= k <= |a|
    && k <= |b|
    && a[..k] == b[..k]
    && ((k == |a| && k < |b|) || (k < |a| && k < |b| && a[k] < b[k]))
  }

  /** `Less` is exactly lexicographic order as given by `BelowAt`. */
  lemma {:induction false} LessIffBelow(a: string, b: string)
    ensures Less(a, b) <==> exists k :: BelowAt(a, b, k)
    decreases |a|
  {
    if |b| == 0 {
    } else if |a| == 0 {
      assert BelowAt(a, b, 0);
    } else if a[0] != b[0] {
      if a[0] < b[0] {
        assert BelowAt(a, b, 0);
      }
      if exists k :: BelowAt(a, b, k) {
        forall k | 0 < k <= |a| && k <= |b|
          ensures a[..k] != b[..k]
        {
          assert a[..k][0] == a[0] && b[..k][0] == b[0];
        }
      }
    } else {
      LessIffBelow(a[1..], b[1..]);
      if Less(a[1..], b[1..]) {
        var k :| BelowAt(a[1..], b[1..], k);
        assert a[..k + 1] == [a[0]] + a[1..][..k];
        assert b[..k + 1] == [b[0]] + b[1..][..k];
        assert BelowAt(a, b, k + 1);
      }
      if exists k :: BelowAt(a, b, k) {
        var k :| BelowAt(a, b, k);
        assert k > 0;
        assert a[1..][..k - 1] == a[..k][1..];
        assert b[1..][..k - 1] == b[..k][1..];
        assert BelowAt(a[1..], b[1..], k - 1);
      }
    }
  }

  /** No string is below itself. */
  lemma {:induction false} LessIrreflexive(a: string)
    ensures !Less(a, a)
    decreases |a|
  {
    if |a| > 0 {
      LessIrreflexive(a[1..]);
    }
  }

  /** For any two strings exactly one of `a < b`, `a == b`, `b < a` holds. */
  lemma {:induction false} LessTrichotomy(a: string, b: string)
    ensures Less(a, b) || a == b || Less(b, a)
    ensures !(Less(a, b) && Less(b, a))
    ensures a == b ==> !Less(a, b)
    decreases |a|
  {
    if |a| > 0 && |b| > 0 && a[0] == b[0] {
      LessTrichotomy(a[1..], b[1..]);
      if a[1..] == b[1..] {
        assert a == [a[0]] + a[1..] && b == [b[0]] + b[1..];
      }
    }
    if a == b {
      LessIrreflexive(a);
    }
  }

  // ---------------------------------------------------------------------
  // trim()
  // ---------------------------------------------------------------------

  /** The characters `String.prototype.trim` removes: ECMAScript's
      WhiteSpace (tab, vertical tab, form feed, the byte order mark and the
      space separators) and LineTerminator characters. */
  predicate IsWhitespace(c: char) {
    || c == '\t' || c == '\n' || c == '\U{000B}' || c == '\U{000C}' || c == '\r'
    || c == ' ' || c == '\U{00A0}' || c == '\U{1680}'
    || ('\U{2000}' <= c <= '\U{200A}')
    || c == '\U{2028}' || c == '\U{2029}' || c == '\U{202F}' || c == '\U{205F}'
    || c == '\U{3000}' || c == '\U{FEFF}'
  }

  /** Drops leading whitespace. */
  function TrimStart(s: string): (r: string)
    ensures |r| <= |s| && r == s[|s| - |r|..]
    ensures forall i :: 0 <= i < |s| - |r| ==> IsWhitespace(s[i])
    ensures |r| == 0 || !IsWhitespace(r[0])
    decreases |s|
  {
    if |s| > 0 && IsWhitespace(s[0]) then TrimStart(s[1..]) else s
  }

  /** Drops trailing whitespace. */
  function TrimEnd(s: string): (r: string)
    ensures |r| <= |s| && r == s[..|r|]
    ensures forall i :: |r| <= i < |s| ==> IsWhitespace(s[i])
    ensures |r| == 0 || !IsWhitespace(r[|r| - 1])
    decreases |s|
  {
    if |s| > 0 && IsWhitespace(s[|s| - 1]) then TrimEnd(s[..|s| - 1]) else s
  }

  /** `s.trim()`: no whitespace is left at either end, and the result is
      empty exactly when the text is all whitespace. */
  function Trim(s: string): (r: string)
    ensures |r| <= |s|
    ensures |r| == 0 || (!IsWhitespace(r[0]) && !IsWhitespace(r[|r| - 1]))
    ensures r == "" <==> AllWhitespace(s)
  {
    var t := TrimStart(s);
    assert forall i :: |s| - |t| <= i < |s| ==> s[i] == t[i - (|s| - |t|)];
    TrimEnd(t)
  }

  predicate AllWhitespace(s: string) {
    forall i :: 0 <= i < |s| ==> IsWhitespace(s[i])
  }

  /** Leading whitespace up to the first non-whitespace character is
      exactly what `TrimStart` removes. */
  lemma TrimStartPadded(pre: string, rest: string)
    requires AllWhitespace(pre)
    requires |rest| > 0 && !IsWhitespace(rest[0])
    ensures TrimStart(pre + rest) == rest
  {
    var s := pre + rest;
    var r := TrimStart(s);
    assert s[|pre|] == rest[0];
    assert forall i :: 0 <= i < |pre| ==> s[i] == pre[i];
    assert |r| == |rest|;
  }

  /** Trailing whitespace after the last non-whitespace character is exactly
      what `TrimEnd` removes. */
  lemma TrimEndPadded(body: string, post: string)
    requires AllWhitespace(post)
    requires |body| > 0 && !IsWhitespace(body[|body| - 1])
    ensures TrimEnd(body + post) == body
  {
    var s := body + post;
    var q := TrimEnd(s);
    assert s[|body| - 1] == body[|body| - 1];
    assert forall i :: |body| <= i < |s| ==> s[i] == post[i - |body|];
    assert |q| == |body|;
  }

  /** Trimming text padded with whitespace on both sides gives back the text,
      provided the text itself begins and ends with a non-whitespace
      character. */
  lemma TrimPadded(pre: string, body: string, post: string)
    requires AllWhitespace(pre) && AllWhitespace(post)
    requires |body| > 0 && !IsWhitespace(body[0]) && !IsWhitespace(body[|body| - 1])
    ensures Trim(pre + body + post) == body
  {
    assert pre + body + post == pre + (body + post);
    TrimStartPadded(pre, body + post);
    TrimEndPadded(body, post);
  }

  // ---------------------------------------------------------------------
  // Lines
  // ---------------------------------------------------------------------

  /** `lines.join("\n")` */
  function JoinLines(lines: seq<string>): string
    decreases |lines|
  {
    if |lines| == 0 then ""
    else if |lines| == 1 then lines[0]
    else lines[0] + "\n" + JoinLines(lines[1..])
  }

  /** The joined text begins with the first line and ends with the last. */
  lemma {:induction false} JoinFirstLast(lines: seq<string>)
    requires |lines| >= 1
    ensures StartsWith(JoinLines(lines), lines[0])
    ensures EndsWith(JoinLines(lines), lines[|lines| - 1])
    decreases |lines|
  {
    if |lines| > 1 {
      JoinFirstLast(lines[1..]);
      var rest := "\n" + JoinLines(lines[1..]);
      assert JoinLines(lines) == lines[0] + rest;
      assert JoinLines(lines)[..|lines[0]|] == lines[0];
    }
  }

  /** An occurrence shifts right when text is put in front. */
  lemma OccursAfterPrefix(p: string, t: string, sub: string, i: int)
    requires OccursAt(t, sub, i)
    ensures OccursAt(p + t, sub, |p| + i)
  {
    assert (p + t)[|p| + i..|p| + i + |sub|] == t[i..i + |sub|];
  }

  /** Where line `k` starts in the joined text. */
  function LineOffset(lines: seq<string>, k: nat): nat
    requires k <= |lines|
    decreases k
  {
    if k == 0 then 0 else |lines[0]| + 1 + LineOffset(lines[1..], k - 1)
  }

  /** Line `k` sits at its offset in the joined text. */
  lemma {:induction false} LineAt(lines: seq<string>, k: nat)
    requires k < |lines|
    ensures OccursAt(JoinLines(lines), lines[k], LineOffset(lines, k))
    decreases k
  {
    JoinFirstLast(lines);
    if k > 0 {
      LineAt(lines[1..], k - 1);
      OccursAfterPrefix(lines[0] + "\n", JoinLines(lines[1..]), lines[k], LineOffset(lines[1..], k - 1));
    }
  }

  /** Earlier lines end before later lines start. */
  lemma {:induction false} LineOffsetIncreasing(lines: seq<string>, i: nat, j: nat)
    requires i < j <= |lines|
    ensures LineOffset(lines, i) + |lines[i]| < LineOffset(lines, j)
    decreases i
  {
    if i > 0 {
      LineOffsetIncreasing(lines[1..], i - 1, j - 1);
    }
  }

  /** `a` occurs in `text` and, after its end, so does `b`. */
  ghost predicate OccursBefore(text: string, a: string, b: string) {
    exists i, j :: OccursAt(text, a, i) && OccursAt(text, b, j) && i + |a| < j
  }

  /** An earlier line occurs before a later one in the joined text. */
  lemma JoinOrdersLines(lines: seq<string>, i: nat, j: nat)
    requires i < j < |lines|
    ensures OccursBefore(JoinLines(lines), lines[i], lines[j])
  {
    LineAt(lines, i);
    LineAt(lines, j);
    LineOffsetIncreasing(lines, i, j);
  }

  /** Joining two non-empty runs of lines puts one line break between. */
  lemma {:induction false} JoinAppend(a: seq<string>, b: seq<string>)
    requires |a| >= 1 && |b| >= 1
    ensures JoinLines(a + b) == JoinLines(a) + "\n" + JoinLines(b)
    decreases |a|
  {
    if |a| == 1 {
      assert (a + b)[1..] == b;
    } else {
      JoinAppend(a[1..], b);
      assert (a + b)[1..] == a[1..] + b;
    }
  }

  /** The joined text of a run of lines followed by more lines begins with
      the run and a line break, and ends with the later run. */
  lemma JoinStartsWith(a: seq<string>, b: seq<string>)
    requires |a| >= 1 && |b| >= 1
    ensures StartsWith(JoinLines(a + b), JoinLines(a) + "\n")
  {
    JoinAppend(a, b);
    assert JoinLines(a + b) == (JoinLines(a) + "\n") + JoinLines(b);
  }

  lemma JoinEndsWith(a: seq<string>, b: seq<string>)
    requires |a| >= 1 && |b| >= 1
    ensures EndsWith(JoinLines(a + b), JoinLines(b))
  {
    JoinAppend(a, b);
    assert JoinLines(a + b) == (JoinLines(a) + "\n") + JoinLines(b);
  }

  lemma EndsWithTrans(s: string, t: string, u: string)
    requires EndsWith(s, t) && EndsWith(t, u)
    ensures EndsWith(s, u)
  {
    assert s[|s| - |u|..] == s[|s| - |t|..][|t| - |u|..];
  }

  lemma JoinTwo(x: string, y: string)
    ensures JoinLines([x, y]) == x + "\n" + y
  {
    assert [x, y][1..] == [y];
  }

  lemma JoinFour(w: string, x: string, y: string, z: string)
    ensures JoinLines([w, x, y, z]) == w + "\n" + x + "\n" + y + "\n" + z
  {
    assert [w, x, y, z][1..] == [x, y, z];
    assert [x, y, z][1..] == [y, z];
    JoinTwo(y, z);
    assert JoinLines([x, y, z]) == x + "\n" + (y + "\n" + z);
    assert JoinLines([w, x, y, z]) == w + "\n" + (x + "\n" + (y + "\n" + z));
  }

  // ---------------------------------------------------------------------
  // Numbers in template literals
  // ---------------------------------------------------------------------

  predicate IsDigit(c: char) {
    '0' <= c <= '9'
  }

  /** `${n}` for a non-negative integer: its decimal digits, without
      leading zeros. */
  function DecimalString(n: nat): (r: string)
    ensures |r| >= 1
    ensures forall i :: 0 <= i < |r| ==> IsDigit(r[i])
    ensures |r| > 1 ==> r[0] != '0'
    decreases n
  {
    if n < 10 then [Digit(n)] else DecimalString(n / 10) + [Digit(n % 10)]
  }

  function Digit(d: nat): (c: char)
    requires d < 10
    ensures IsDigit(c) && DigitValue(c) == d
  {
    ['0', '1', '2', '3', '4', '5', '6', '7', '8', '9'][d]
  }

  /** The value of a string of decimal digits. */
  function DecimalValue(s: string): nat
    requires forall i :: 0 <= i < |s| ==> IsDigit(s[i])
    decreases |s|
  {
    if |s| == 0 then 0
    else DecimalValue(s[..|s| - 1]) * 10 + DigitValue(s[|s| - 1])
  }

  function DigitValue(c: char): nat
    requires IsDigit(c)
  {
    (c as int) - ('0' as int)
  }

  /** Reading the digits back gives the number. */
  lemma {:induction false} DecimalRoundTrip(n: nat)
    ensures DecimalValue(DecimalString(n)) == n
    decreases n
  {
    var r := DecimalString(n);
    if n >= 10 {
      DecimalRoundTrip(n / 10);
      assert r[..|r| - 1] == DecimalString(n / 10);
    }
  }

  /** Different numbers are written differently. */
  lemma DecimalInjective(m: nat, n: nat)
    requires DecimalString(m) == DecimalString(n)
    ensures m == n
  {
    DecimalRoundTrip(m);
    DecimalRoundTrip(n);
  }
}

=== FILE: version.dfy ===
/** The version check of the `checkVersion` command: the release tag loses
    one leading `v` and is then compared with the running editor's version
    by plain string ordering, not by semantic-version ordering. */
module Version {
  import opened Strings

  /** `tag.replace(/^v/, '')`: removes a single lower-case `v` at the start
      and nothing else. */
  function StripTag(tag: string): (v: string)
    ensures StartsWith(tag, "v") ==> tag == "v" + v
    ensures !StartsWith(tag, "v") ==> v == tag
  {
    if |tag| > 0 && tag[0] == 'v' then tag[1..] else tag
  }

  /** `latestVersion > currentVersion` on strings: holds exactly when the
      latest version is above the current one in lexicographic order, that
      is, the two agree up to some position, after which the current
      version either ends or has the smaller character. */
  predicate IsNewer(latest: string, current: string): (r: bool)
    ensures r <==> exists k :: BelowAt(current, latest, k)
  {
    LessIffBelow(current, latest);
    Less(current, latest)
  }

  /** Exactly one of "newer", "same" and "older" holds, and identical
      strings are never newer. */
  lemma NewerTrichotomy(latest: string, current: string)
    ensures latest == current ==> !IsNewer(latest, current)
    ensures IsNewer(latest, current) ==> !IsNewer(current, latest)
    ensures latest != current ==> IsNewer(latest, current) || IsNewer(current, latest)
  {
    LessTrichotomy(current, latest);
  }

  /** Only one `v` is stripped, an upper-case `V` is kept, and a tag without
      the marker is used unchanged. */
  lemma StripTagExamples()
    ensures StripTag("v1.95.0") == "1.95.0"
    ensures StripTag("vv1.0") == "v1.0"
    ensures StripTag("V1.0") == "V1.0"
    ensures StripTag("1.95.0") == "1.95.0"
    ensures StripTag("") == ""
  {
    assert "v1.95.0"[1..] == "1.95.0";
    assert "vv1.0"[1..] == "v1.0";
  }

  /** String ordering is not semantic-version ordering: 1.10.0 is not
      newer than 1.9.0, while 1.9.0 counts as newer than 1.10.0; likewise
      an editor at 1.99.3 is not offered release v1.100.0. */
  lemma StringOrderIsNotSemver()
    ensures !IsNewer("1.10.0", "1.9.0")
    ensures IsNewer("1.9.0", "1.10.0")
    ensures !IsNewer(StripTag("v1.100.0"), "1.99.3")
    ensures IsNewer(StripTag("v2.0.0"), "1.95.0")
  {
    assert "1.9.0"[1..] == ".9.0" && "1.10.0"[1..] == ".10.0";
    assert ".9.0"[1..] == "9.0" && ".10.0"[1..] == "10.0";
    assert "v1.100.0"[1..] == "1.100.0";
    assert "1.100.0"[1..] == ".100.0" && "1.99.3"[1..] == ".99.3";
    assert ".100.0"[1..] == "100.0" && ".99.3"[1..] == "99.3";
    assert "v2.0.0"[1..] == "2.0.0";
  }
}

=== FILE: wrappers.dfy ===
/** `Option` and `Result`, the optional-value and success-or-error
    datatypes shared by the other modules. */
module Wrappers {

  /** A value that may be missing: JavaScript's `undefined` on one side,
      a present value on the other. */
  datatype Option<+T> = None | Some(value: T) {

    /** Returns the value, or `default` when it is missing. */
    function GetOr(default: T): T {
      match this
      case Some(v) => v
      case None => default
    }
  }

  /** The settled state of a promise: resolved with a value or rejected
      with an error. */
  datatype Result<+R, +E> = Success(value: R) | Failure(error: E)
}
